=== FILE: README.md ===
# financial-manager: authentication, access policy and record services in Dafny

A model of the security core of the financial-manager Spring application and
of its four record services. It covers:

- the access policy of `SecurityConfig`:
  - the ignore list for static assets;
  - the ordered `authorizeHttpRequests` table, evaluated first match wins.
- the bcrypt `PasswordEncoder`, as an ideal one-way function.
- `JwtService`: HS256-signed tokens whose claims are read back only through
  the signature-checking parser. The `iat` and `exp` claims are NumericDate
  seconds, as the library stores them.
- the `UserDetailsService` of `JwtFilterConfig`, which tries the login
  identifier as a username first and then as an email.
- `AuthenticationService`, together with the `DaoAuthenticationProvider` it
  delegates the credential check to.
- the signup and login endpoints of `AuthenticationController`.
- `UserService`, `CategoryService`, `BudgetService` and
  `TransactionService`, over a JPA repository modelled as an id→record map
  plus the next generated id (module `Store`).

Everything is pure functions over immutable datatypes. Results that Java
throws are an `Err` carrying the exception (module `Common`). A Java `null`
is `None`.

Some inputs of the source become parameters:
- the clock;
- the bcrypt salt;
- the configured secret and token lifetime;
- the ambient `SecurityContextHolder` authentication.

## Model

| member | source | states |
|---|---|---|
| SecurityConfig.Decide | src/main/java/hu/financial/config/SecurityConfig.java:33-38 | A static-asset path bypasses the chain for every verb. Otherwise: DELETE requires ADMIN on every path, including /api/auth and /api/users. Non-DELETE /admin/** requires ADMIN. /api/users/** requires any authenticated principal. /api/auth/** is open to anonymous requests. Everything else requires authentication. |
| SecurityConfig.FilterChainAccess | src/main/java/hu/financial/config/SecurityConfig.java:33-38 | Evaluating the rule table first match wins, with `anyRequest()` as the closing default, equals the flat if-chain of the five rules in source order. |
| SecurityConfig.FirstMatch | src/main/java/hu/financial/config/SecurityConfig.java:33-38 | Returns the index of a matching rule such that no earlier rule matches, or None exactly when no rule matches. |
| SecurityConfig.Grant | src/main/java/hu/financial/config/SecurityConfig.java:34-38 | `permitAll`, `authenticated` and `hasRole`: permits exactly the principals each one names. An anonymous request refused by any rule gets 401; an authenticated one gets 403. |
| SecurityConfig.IgnoredIsStaticAsset | src/main/java/hu/financial/config/SecurityConfig.java:61 | The ignore list matches exactly the paths under css, js, img or lib, and the exact path /favicon.ico. |
| SecurityConfig.PrivilegeMonotone | src/main/java/hu/financial/config/SecurityConfig.java:34-38 | Whatever an anonymous request may do, a USER may do; whatever a USER may do, an ADMIN may do. |
| PasswordEncoder.EncodeThenMatches | src/main/java/hu/financial/config/SecurityConfig.java:46-49 | A password matches its own bcrypt encoding, and no other password does. |
| PasswordEncoder.EncodeIsSalted | src/main/java/hu/financial/config/SecurityConfig.java:46-49 | Encodings of one password under different salts differ, and an encoding is never the plaintext. |
| PasswordEncoder.PlainNeverMatches | src/main/java/hu/financial/config/SecurityConfig.java:46-49 | A stored value that is not a bcrypt hash matches no password. |
| JwtService.SignInKey | src/main/java/hu/financial/service/JwtService.java:61-64 | The key is the HMAC key the configured secret stands for. A secret under 256 bits is refused with a weak-key error. |
| JwtService.HmacKeyOf | src/main/java/hu/financial/service/JwtService.java:61-64 | Following section 2 of RFC 2104, a secret of at most 64 bytes becomes the 64-byte block that starts with the secret and continues with zero bytes. A longer secret is hashed first. |
| JwtService.SameKeyIffZeroExtends | src/main/java/hu/financial/service/JwtService.java:61-64 | Two secrets of at most 64 bytes are the same HMAC key exactly when one is the other followed by zero bytes. |
| JwtService.BuildToken | src/main/java/hu/financial/service/JwtService.java:74-82 | The subject is the username. The extra claims are kept except the registered names sub, iat and exp, which the builder overrides. The signature is HS256 under the configured key over exactly the token's claims. |
| JwtService.GenerateToken | src/main/java/hu/financial/service/JwtService.java:70-72 | The public generator adds no extra claims: only subject, issued-at and expiration. It fails only for a weak key. |
| JwtService.ExtractAllClaims | src/main/java/hu/financial/service/JwtService.java:52-59 | Claims come back exactly when the signature verifies under the configured key and the token has not expired. A bad signature is reported as such before expiry is considered. |
| JwtService.ExtractUsername | src/main/java/hu/financial/service/JwtService.java:26-28 | The subject of a token that parses, and an error for any token that does not. |
| JwtService.IsTokenExpired | src/main/java/hu/financial/service/JwtService.java:35-37 | The token is parsed at one clock reading and compared with a second `new Date()`. Expired means strictly before the second reading, so expiration == now passes. Because parsing already refuses tokens expired at the first reading, true is possible only when the token expires between the two readings, and never when the second reading is not later. |
| JwtService.IsTokenValid | src/main/java/hu/financial/service/JwtService.java:30-33 | Uses three clock readings: the subject parse, then the parse and the comparison inside `isTokenExpired`. For a token that parses, the result is true exactly when the subject is the user's username and the expiration is not before the last reading. It is never true when the subject differs. |
| JwtService.ValidIffAccepted | src/main/java/hu/financial/service/JwtService.java:30-33 | With clock readings that do not go backwards, `isTokenValid` says true exactly when the key is strong enough, the signature was made with it over these claims, the token has not expired by the last reading, and it was issued to this user. |
| JwtService.ExpiryBetweenReadings | src/main/java/hu/financial/service/JwtService.java:35-37 | A token that parses at the first reading but expires before the second is reported expired, and `isTokenValid` answers false rather than throwing. |
| JwtService.UsernameRoundTrip | src/main/java/hu/financial/service/JwtService.java:26-28 | Under the same configuration, a freshly generated token that has not expired yields the user's username and is valid for that user. |
| JwtService.TokenLifetime | src/main/java/hu/financial/service/JwtService.java:43-45 | With one clock reading after the epoch and no `long` overflow, the expiration read back is the issue time plus `getExpirationTime()` seconds. |
| JwtService.TamperedClaimsRejected | src/main/java/hu/financial/service/JwtService.java:52-59 | Claims altered after signing, with the signature kept, are refused with a signature error at any time. |
| JwtService.ForeignKeyRejected | src/main/java/hu/financial/service/JwtService.java:52-59 | A token generated under a secret that is a different HMAC key yields no claims, only a signature error. |
| JwtService.ZeroPaddedSecretAccepted | src/main/java/hu/financial/service/JwtService.java:52-64 | A token issued under a secret passes the signature check under that secret followed by one zero byte. It then parses exactly while it has not expired. |
| JwtFilterConfig.LoadUserByUsername | src/main/java/hu/financial/config/JwtFilterConfig.java:28-37 | Succeeds exactly when some user has the identifier as username or as email, and never yields null. A username match is returned without consulting emails; otherwise the email match is returned; with neither, a not-found error is raised. |
| JwtFilterConfig.UsernameMatchWins | src/main/java/hu/financial/config/JwtFilterConfig.java:29-32 | When the identifier is one user's username and another user's email, the username holder is returned. |
| Repositories.FindByUsername | src/main/java/hu/financial/repository/UserRepository.java:8 | None exactly when no stored user has the username; otherwise the id of a user who does. |
| Repositories.FindByEmail | src/main/java/hu/financial/repository/UserRepository.java:10 | None exactly when no stored user has the email; otherwise the id of a user who does. |
| Repositories.FindByName | src/main/java/hu/financial/repository/CategoryRepository.java:10 | None exactly when no stored category has the name; otherwise the id of one that does. |
| Repositories.FindByUserId | src/main/java/hu/financial/repository/TransactionRepository.java:15 | Exactly the transactions owned by the user, one entry per stored row, in id order. |
| AuthenticationService.CheckCredentials | src/main/java/hu/financial/config/SecurityConfig.java:51-57 | Succeeds exactly when the identifier resolves to a stored user and the password matches that user's hash. An unknown identifier and a wrong password both give bad credentials. |
| AuthenticationService.Signup | src/main/java/hu/financial/service/AuthenticationService.java:34-40 | Saves exactly one new record under a fresh id and leaves every other record as it was. Username and email are stored as given. The password is stored as its bcrypt encoding, never as the plaintext, and the plaintext matches it. |
| AuthenticationService.Authenticate | src/main/java/hu/financial/service/AuthenticationService.java:42-47 | A failed credential check propagates and nothing is looked up. After a successful check the result is the user with that email, or null exactly when nobody has the identifier as email. |
| AuthenticationService.AuthenticateCorrected | src/main/java/hu/financial/service/AuthenticationService.java:42-47 | Returns the user the credential check authenticated, whether the identifier was their username or their email. |
| AuthenticationService.GetLoggedInUsers | src/main/java/hu/financial/service/AuthenticationService.java:50-57 | No authentication gives the empty list; an authentication gives every stored user, one entry per stored row, in id order. |
| AuthenticationService.LoginByUsernameYieldsNull | src/main/java/hu/financial/service/AuthenticationService.java:42-47 | A user who gives their username and the right password passes the credential check, yet `authenticate` returns null when nobody has that string as email. |
| AuthenticationService.SignupGrowsAll | src/main/java/hu/financial/service/AuthenticationService.java:34-57 | After signup, `getAllUsers` succeeds, and both it and `getLoggedInUsers` under any authentication list one more user, the saved one among them. |
| AuthenticationService.PlainPasswordUpdateLocksOut | src/main/java/hu/financial/service/UserService.java:43 | After `updateUser` sets a password that is not a bcrypt hash, the credential check for that username fails for every password attempt. |
| AuthenticationController.Signup | src/main/java/hu/financial/controller/AuthenticationController.java:31-35 | 200, with a body that is exactly the user the service saved. |
| AuthenticationController.LoginFailure | src/main/java/hu/financial/controller/AuthenticationController.java:43-48 | An authentication error or user-not-found gives 401 "Invalid credentials"; any other failure gives 500 "Internal server error". |
| AuthenticationController.Login | src/main/java/hu/financial/controller/AuthenticationController.java:37-50 | 200 exactly when authentication returns a user and a token can be made; the body is then the token generated for that user. Every failure carries a message and no token. A failed check gives 401, and a null user gives 500. |
| AuthenticationController.LoginCorrected | src/main/java/hu/financial/controller/AuthenticationController.java:37-50 | 200 exactly when the credentials check out and the key is strong, with the token for the authenticated user. Bad credentials give 401. |
| AuthenticationController.UnknownUserLooksLikeWrongPassword | src/main/java/hu/financial/controller/AuthenticationController.java:43-46 | Logging in with an unknown identifier and logging in with a known email and a wrong password give the identical response, 401 "Invalid credentials". |
| AuthenticationController.LoginByUsernameFails | src/main/java/hu/financial/controller/AuthenticationController.java:40-41 | Logging in with a username and the right password gives 500 as written, but 200 with a token for that username in the corrected login. |
| AuthenticationController.AliceLogsInByUsername | src/main/java/hu/financial/service/AuthenticationService.java:46 | A concrete instance: alice with email alice@example.com gets 500 as written and 200 corrected. |
| AuthenticationController.SignupThenLoginByEmail | src/main/java/hu/financial/controller/AuthenticationController.java:31-50 | After signup with an email that no account uses as username or email, logging in with that email and the password answers 200 with a token whose subject is the new user's username. |
| AuthenticationController.UsernameEqualToOtherEmailGetsTheirToken | src/main/java/hu/financial/service/AuthenticationService.java:42-47 | An account whose username is another account's email logs in with that string and its own password. As written, the login answers 200 with a token in the other account's name. The corrected login issues the token of the account whose password was checked. |
| AuthenticationController.BobsTokenForAnotherAccount | src/main/java/hu/financial/service/AuthenticationService.java:46 | A concrete instance: an account named bob@x.com logs in with its own password and receives, as written, a token whose subject is bob. |
| UserService.GetAllUsers | src/main/java/hu/financial/service/UserService.java:23-29 | Not-found exactly on an empty store; otherwise every stored user, one entry per stored row, in id order. |
| UserService.GetUserById | src/main/java/hu/financial/service/UserService.java:31-34 | The stored user, or not-found exactly when the id is missing. |
| UserService.ValidateUserForUpdate | src/main/java/hu/financial/service/UserService.java:57-74 | Fails exactly when a changed username is taken, or a non-blank changed email is taken. A taken username is reported before any email check. |
| UserService.UpdateUser | src/main/java/hu/financial/service/UserService.java:36-46 | A missing id gives not-found; a duplicate gives a duplicate error; in both cases nothing is saved. On success: username, email and password are copied verbatim (not re-encoded), the id and other columns are kept, and other users are unchanged. |
| UserService.DeleteUser | src/main/java/hu/financial/service/UserService.java:48-55 | A missing id gives not-found; otherwise exactly that id is removed and the other rows are kept. |
| UserService.IsUserLoggedIn | src/main/java/hu/financial/service/UserService.java:76-78 | True exactly when the principal's name is a stored username. Without an authentication the call dereferences null. |
| UserService.BlankEmailSkipsCheck | src/main/java/hu/financial/service/UserService.java:67-68 | A blank new email is never checked for duplicates, and it is copied onto the user. |
| UserService.UpdateKeepsAccountsUnique | src/main/java/hu/financial/service/UserService.java:57-74 | If usernames and non-blank emails were unique before a successful update, they still are after it. |
| UserService.UpdateThenGet | src/main/java/hu/financial/service/UserService.java:36-46 | After a successful update, reading the id gives back the saved user. |
| UserService.DeleteThenGet | src/main/java/hu/financial/service/UserService.java:48-55 | After a successful delete, reading the id gives not-found. |
| UserService.DeleteShrinksAll | src/main/java/hu/financial/service/UserService.java:23-55 | After a successful delete, `getAllUsers` lists one user fewer, and fails exactly when the deleted user was the last one. |
| CategoryService.ValidateCategoryForCreation | src/main/java/hu/financial/service/CategoryService.java:52-56 | Fails with a name duplicate exactly when a stored category has the name. |
| CategoryService.CreateCategory | src/main/java/hu/financial/service/CategoryService.java:17-20 | A taken name is refused and nothing is saved; a fresh name is saved under a new id with nothing else changed. |
| CategoryService.GetCategoryById | src/main/java/hu/financial/service/CategoryService.java:22-25 | The stored category, or not-found exactly when the id is missing. |
| CategoryService.ValidateCategoryForUpdate | src/main/java/hu/financial/service/CategoryService.java:58-64 | A missing category is a null dereference. A rename to a taken name is a duplicate. Keeping the name skips the check. |
| CategoryService.UpdateCategory | src/main/java/hu/financial/service/CategoryService.java:27-33 | A missing id fails and nothing is saved. A rename to a taken name is a duplicate. On success only name and description are copied onto the stored record. |
| CategoryService.DeleteCategory | src/main/java/hu/financial/service/CategoryService.java:35-41 | A missing id gives not-found; otherwise exactly that id is removed. |
| CategoryService.GetAllCategories | src/main/java/hu/financial/service/CategoryService.java:43-50 | Not-found exactly on an empty store; otherwise every stored category, one entry per stored row, in id order. |
| CategoryService.CreateKeepsNamesUnique | src/main/java/hu/financial/service/CategoryService.java:52-56 | Creation keeps category names unique. |
| CategoryService.UpdateKeepsNamesUnique | src/main/java/hu/financial/service/CategoryService.java:58-64 | Update keeps category names unique. |
| CategoryService.CreateThenGet | src/main/java/hu/financial/service/CategoryService.java:17-25 | A created category is read back by its new id, and `findByName` finds it. |
| CategoryService.DeleteThenGet | src/main/java/hu/financial/service/CategoryService.java:35-41 | After a successful delete, reading the id gives not-found. |
| CategoryService.CreateGrowsAll | src/main/java/hu/financial/service/CategoryService.java:17-50 | After a successful create, `getAllCategories` succeeds and lists one more category, the new one among them. |
| CategoryService.DeleteShrinksAll | src/main/java/hu/financial/service/CategoryService.java:35-50 | After a successful delete, `getAllCategories` lists one category fewer, and fails exactly when the deleted category was the last one. |
| BudgetService.ValidateAmount | src/main/java/hu/financial/service/BudgetService.java:40-50 | Passes exactly for a positive amount; otherwise an illegal-argument error with the source's message. |
| BudgetService.CreateBudget | src/main/java/hu/financial/service/BudgetService.java:16-19 | An amount ≤ 0 is refused and nothing is saved; otherwise the budget is saved under a new id. |
| BudgetService.GetAllBudgets | src/main/java/hu/financial/service/BudgetService.java:21-23 | Every stored budget, possibly none, without error; one entry per stored row, in id order. |
| BudgetService.GetBudgetById | src/main/java/hu/financial/service/BudgetService.java:25-27 | The stored budget, or null exactly for a missing id. |
| BudgetService.UpdateBudget | src/main/java/hu/financial/service/BudgetService.java:29-34 | An amount ≤ 0 is refused before the stored record is touched. A missing id is then a null dereference. On success only the amount changes. |
| BudgetService.DeleteBudget | src/main/java/hu/financial/service/BudgetService.java:36-38 | Removes the id with no existence check and keeps every other row. |
| BudgetService.OperationsKeepAmountsPositive | src/main/java/hu/financial/service/BudgetService.java:16-50 | Create, update and delete keep every stored amount positive. |
| BudgetService.CreateThenDelete | src/main/java/hu/financial/service/BudgetService.java:16-38 | A created budget is read back by its id. Deleting it makes the id read as null and restores the previous rows. |
| BudgetService.CreateGrowsAll | src/main/java/hu/financial/service/BudgetService.java:16-23 | After a successful create, `getAllBudgets` lists one more budget, the new one among them. |
| BudgetService.DeleteShrinksAll | src/main/java/hu/financial/service/BudgetService.java:21-38 | After a delete, `getAllBudgets` lists one budget fewer when the id was stored, and the same list otherwise. |
| TransactionService.ValidateAmount | src/main/java/hu/financial/service/TransactionService.java:41-45 | Passes exactly for a positive amount; otherwise an illegal-argument error with the source's message. |
| TransactionService.CreateTransaction | src/main/java/hu/financial/service/TransactionService.java:16-19 | An amount ≤ 0 is refused and nothing is saved; otherwise the transaction is saved under a new id. |
| TransactionService.GetAllTransactions | src/main/java/hu/financial/service/TransactionService.java:22-27 | Not-found exactly on an empty store; otherwise every stored transaction, one entry per stored row, in id order. |
| TransactionService.GetTransactionById | src/main/java/hu/financial/service/TransactionService.java:29-31 | The stored transaction, or null exactly for a missing id. |
| TransactionService.UpdateTransaction | src/main/java/hu/financial/service/TransactionService.java:33-39 | An amount ≤ 0 is refused before the stored record is touched. A missing id is then a null dereference. On success only amount and description change; the owner and other columns stay. |
| TransactionService.GetTransactionsByUserId | src/main/java/hu/financial/service/TransactionService.java:47-49 | Exactly the transactions whose owner id equals the argument, one entry per stored row, in id order. |
| TransactionService.DeleteTransaction | src/main/java/hu/financial/service/TransactionService.java:51-53 | Removes the id with no existence check and keeps every other row. |
| TransactionService.OperationsKeepAmountsPositive | src/main/java/hu/financial/service/TransactionService.java:16-59 | Create, update and delete keep every stored amount positive. |
| TransactionService.CreateThenGet | src/main/java/hu/financial/service/TransactionService.java:16-31 | A created transaction is returned by `getTransactionById` under its new id, and every other id reads as before. |
| TransactionService.UpdateThenGet | src/main/java/hu/financial/service/TransactionService.java:29-45 | After an update, `getTransactionById` returns the new amount and description with the old owner. |
| TransactionService.DeleteThenGet | src/main/java/hu/financial/service/TransactionService.java:29-53 | After a delete, `getTransactionById` of that id is null, and every other id reads as before. |
| TransactionService.UpdateKeepsOwner | src/main/java/hu/financial/service/TransactionService.java:33-49 | An updated transaction still appears in its owner's list. |
| TransactionService.CreateGrowsLists | src/main/java/hu/financial/service/TransactionService.java:16-49 | After a successful create, `getAllTransactions` succeeds and lists one more transaction, the new one among them; the owner's `getTransactionsByUserId` list also grows by exactly one, holding the new one. |
| TransactionService.DeleteShrinksAll | src/main/java/hu/financial/service/TransactionService.java:22-53 | After deleting a stored id, `getAllTransactions` lists one transaction fewer, and fails exactly when the deleted transaction was the last one. |

## Left out

- Static assets: the ignore list models the request path as decoded segments. Ant-pattern details beyond a `/**` suffix and an exact path (single-star segments, trailing slashes, URL decoding) are not modelled.
- CSRF, the stateless session policy, filter ordering, HTTP Basic and the provider/manager beans are Spring wiring (SecurityConfig.java:32, 39-41, 51-57, 64-67). Only their effect on the credential check is modelled, in `AuthenticationService.CheckCredentials`.
- The JWT request filter is not part of this model.
- How the filter turns a rejected token into 401 is not modelled either.
- HMAC-SHA256, base64 decoding of the secret, compact JWS serialisation, the JOSE header and bcrypt internals are library code. Signatures and hashes are kept symbolically, as ideal primitives.
- bcrypt's 72-byte input limit is not modelled.
- JwtService.BuildToken: issued-at and expiration take two clock readings, passed separately. `TokenLifetime` assumes both readings are equal.
- JwtService.GetExpirationTime has no contract of its own. What it returns is stated by `JwtService.TokenLifetime`.
- jjwt's clock-skew allowance is not modelled (it is zero by default).
- Expiry at equality: section 4.1.4 of RFC 7519 defines `exp` as the time on or after which the JWT must not be accepted. The code's `before` test (JwtService.java:36) and jjwt's `now.after(exp)` both accept a token at exactly its expiration, and the model follows the code.
- Store.All / Store.Where: `findAll()` and the derived `findByUserId` issue no `ORDER BY`, so the row order is the database's. Listing in id order is this model's choice. Only the set of rows, each once, is the source's promise. The same holds for every list built on them: `getAllUsers`, `getAllCategories`, `getAllBudgets`, `getAllTransactions`, `getTransactionsByUserId` and `getLoggedInUsers`.
- JwtService.HmacKeyOf: a secret longer than the 64-byte SHA-256 block is hashed before use. The model keeps such a key symbolic and distinct from every padded block. So a 32-byte secret equal to that digest, which HMAC treats as the same key, is not recognised as one.
- Entities.User: `UserDetails.getUsername()` (JwtService.java:78, JwtFilterConfig.java) is read as the entity's username column, as UserService.java:59-60 does when it passes `getUsername()` to `findByUsername`. User.java is not part of this model. If the entity returned its email there, token subjects, and with them the second entry under Findings, would change accordingly.
- AuthenticationService.CheckCredentials: `DaoAuthenticationProvider` also refuses an account that is locked, disabled or expired, before comparing the password, and one whose credentials have expired, after comparing it. Each refusal is an `AuthenticationException`, so the login answers 401. The flags come from User.java, which is not part of this model, so these checks are assumed to pass for every account.
- Repositories.FindByUsername: a derived single-result query over duplicate rows makes JPA throw `IncorrectResultSizeDataAccessException`. The model returns the matching row with the least id instead. The least-id clause of its contract is this model choice, not a promise of the source; the other clauses hold whenever the query does not throw.
- Repositories.FindByEmail: same as `FindByUsername`.
- Repositories.FindByName: a derived single-result query over duplicate names makes JPA throw `IncorrectResultSizeDataAccessException`. The model returns a matching id and does not model that exception.
- Null fields and client-supplied ids on `save` are not modelled. A new entity always gets the next generated id.
- `deleteById` on a missing id is a no-op, as in Spring Data 3; earlier versions threw.
- The user's role is not a field of the modelled `User` record. Roles enter only through the `Principal` of the access policy.
- Signup performs no duplicate check, and any database constraint that would reject a duplicate username or email is not modelled.
- `GlobalExceptionHandler`, the exception classes and the CRUD controllers only build responses and format messages.
- The amount types of `Budget` and `Transaction` are not modelled. Only the sign test matters, so amounts are integers.
- The ambient `SecurityContextHolder` authentication is passed in as an `Option` of the principal's name.

## Findings

| source | as written | input that shows it | evidently intended | confidence | as-written member | corrected member |
|---|---|---|---|---|---|---|
| src/main/java/hu/financial/service/AuthenticationService.java:46 | After the credential check, which accepts a username or an email as identifier, `authenticate` returns `findByEmail(identifier)`. For a username that is no account's email this is `null`, and `generateToken(null)` then throws, so the login endpoint answers 500. | A user `alice` with email `alice@example.com` and password `secret123` logs in with identifier `alice` and password `secret123`. | The user the credential check authenticated is returned, and the login answers 200 with a token whose subject is `alice`. | not executed | AuthenticationController.LoginByUsernameFails | AuthenticationController.LoginCorrected |
| src/main/java/hu/financial/service/AuthenticationService.java:46 | When the username that passed the credential check is another account's email, `findByEmail(identifier)` returns that other account, and the login endpoint answers 200 with a token in its name. Signup has no duplicate check, so anyone can register such a username. | Account 0 is `bob` with email `bob@x.com`; account 1 has username `bob@x.com`, email `m@x.com` and password `mallorypw`. Logging in with identifier `bob@x.com` and password `mallorypw` returns a token whose subject is `bob`. | The token is issued for the account whose password was checked, here subject `bob@x.com`. | not executed | AuthenticationController.UsernameEqualToOtherEmailGetsTheirToken | AuthenticationController.LoginCorrected |

=== FILE: authentication_controller.dfy ===
/** `AuthenticationController` (`/api/auth`): signup passes the service's
    result through, and login maps the outcome of authentication and token
    generation to an HTTP response. */
module AuthenticationController {
  import opened Common
  import opened Store
  import opened Entities
  import opened PasswordEncoder
  import opened JwtService
  import opened AuthenticationService
  import opened Repositories

  const OK: int := 200
  const UNAUTHORIZED: int := 401
  const INTERNAL_SERVER_ERROR: int := 500

  datatype Body = UserBody(user: User) | TokenBody(token: Token) | Message(text: string)

  datatype Response = Response(status: int, body: Body)

  /** `POST /api/auth/signup`: 200 with the saved user. */
  function Signup(users: Repo<User>, input: RegisterUser, salt: Salt): (r: (Repo<User>, Response))
    ensures r.0 == AuthenticationService.Signup(users, input, salt).0
    ensures r.1.status == OK
    ensures r.1.body.UserBody? && r.1.body.user.username == input.username && r.1.body.user.email == input.email
    ensures r.1.body == UserBody(r.0.rows[AuthenticationService.Signup(users, input, salt).1])
  {
    var (after, id) := AuthenticationService.Signup(users, input, salt);
    (after, Response(OK, UserBody(after.rows[id])))
  }

  /** The `catch` clauses of `login`: an `AuthenticationException` or a
      `UserNotFoundException` is 401 "Invalid credentials"; anything else
      is 500 "Internal server error". */
  function LoginFailure(e: Error): (r: Response)
    ensures r.body.Message?
    ensures IsAuthenticationError(e) || e == UserNotFound ==>
              r == Response(UNAUTHORIZED, Message("Invalid credentials"))
    ensures !IsAuthenticationError(e) && e != UserNotFound ==>
              r == Response(INTERNAL_SERVER_ERROR, Message("Internal server error"))
  {
    if IsAuthenticationError(e) then Response(UNAUTHORIZED, Message("Invalid credentials"))
    else if e.UserNotFound? then Response(UNAUTHORIZED, Message("Invalid credentials"))
    else Response(INTERNAL_SERVER_ERROR, Message("Internal server error"))
  }

  /** `POST /api/auth/login` as written: authenticate, then generate a
      token for the returned user. A `null` user makes `generateToken`
      throw a NullPointerException. */
  function Login(cfg: Config, users: Repo<User>, input: LoginUser, clockIat: int, clockExp: int): (r: Response)
    ensures r.status == OK <==>
              && Authenticate(users, input).Ok? && Authenticate(users, input).value.Some?
              && GenerateToken(cfg, Authenticate(users, input).value.value, clockIat, clockExp).Ok?
    ensures r.status == OK ==>
              r.body == TokenBody(GenerateToken(cfg, Authenticate(users, input).value.value, clockIat, clockExp).value)
    ensures r.status != OK ==> r.body.Message?
    ensures Authenticate(users, input).Err? ==> r == Response(UNAUTHORIZED, Message("Invalid credentials"))
    ensures Authenticate(users, input) == Ok(None) ==>
              r == Response(INTERNAL_SERVER_ERROR, Message("Internal server error"))
  {
    match Authenticate(users, input)
    case Err(e) => LoginFailure(e)
    case Ok(None) => LoginFailure(NullReference)
    case Ok(Some(user)) =>
      match GenerateToken(cfg, user, clockIat, clockExp)
      case Err(e) => LoginFailure(e)
      case Ok(token) => Response(OK, TokenBody(token))
  }

  /** `login` as evidently intended: the token is generated for the user
      the credential check authenticated. */
  function LoginCorrected(cfg: Config, users: Repo<User>, input: LoginUser, clockIat: int, clockExp: int): (r: Response)
    ensures r.status == OK <==> CheckCredentials(users, input.email, input.password).Ok? && |cfg.secret| >= MIN_KEY_BYTES
    ensures r.status == OK ==>
              r.body == TokenBody(GenerateToken(cfg, CheckCredentials(users, input.email, input.password).value,
                                                clockIat, clockExp).value)
    ensures r.status != OK ==> r.body.Message?
    ensures CheckCredentials(users, input.email, input.password).Err? ==>
              r == Response(UNAUTHORIZED, Message("Invalid credentials"))
  {
    match AuthenticateCorrected(users, input)
    case Err(e) => LoginFailure(e)
    case Ok(user) =>
      match GenerateToken(cfg, user, clockIat, clockExp)
      case Err(e) => LoginFailure(e)
      case Ok(token) => Response(OK, TokenBody(token))
  }

  /** An unknown identifier and a wrong password give the same response. */
  lemma UnknownUserLooksLikeWrongPassword(cfg: Config, users: Repo<User>, unknown: string, id: nat,
                                          wrong: string, anything: string, clockIat: int, clockExp: int)
    requires !Repositories.HasUsername(users, unknown) && !Repositories.HasEmail(users, unknown)
    requires id in users.rows && !Matches(wrong, users.rows[id].password)
    requires forall k :: k in users.rows && k != id ==> users.rows[k].email != users.rows[id].email
    requires !Repositories.HasUsername(users, users.rows[id].email)
    ensures Login(cfg, users, LoginUser(unknown, anything), clockIat, clockExp)
         == Login(cfg, users, LoginUser(users.rows[id].email, wrong), clockIat, clockExp)
         == Response(UNAUTHORIZED, Message("Invalid credentials"))
  {
    assert Repositories.FindByEmail(users, users.rows[id].email) == Some(id);
  }

  /** A stored user whose username is nobody's email logs in with that
      username and the right password and, as written, gets a 500; the
      corrected login gives them a token for their username. */
  lemma LoginByUsernameFails(cfg: Config, users: Repo<User>, id: nat, password: string,
                             clockIat: int, clockExp: int)
    requires id in users.rows
    requires forall k :: k in users.rows && k != id ==> users.rows[k].username != users.rows[id].username
    requires Matches(password, users.rows[id].password)
    requires !Repositories.HasEmail(users, users.rows[id].username)
    requires |cfg.secret| >= MIN_KEY_BYTES
    ensures Login(cfg, users, LoginUser(users.rows[id].username, password), clockIat, clockExp)
         == Response(INTERNAL_SERVER_ERROR, Message("Internal server error"))
    ensures var r := LoginCorrected(cfg, users, LoginUser(users.rows[id].username, password), clockIat, clockExp);
            r.status == OK && r.body.token.claims.subject == users.rows[id].username
  {
    LoginByUsernameYieldsNull(users, id, password);
  }

  /** A concrete instance: alice, registered with email alice@example.com,
      logs in with `alice` and the right password; the login as written answers
      500, the corrected one 200. */
  lemma AliceLogsInByUsername(cfg: Config, salt: Salt)
    requires |cfg.secret| >= MIN_KEY_BYTES
    ensures var users: Repo<User> :=
              Table(map[0 := User("alice", "alice@example.com", Encode("secret123", salt), map[])], 1);
            && Login(cfg, users, LoginUser("alice", "secret123"), 0, 0).status == INTERNAL_SERVER_ERROR
            && LoginCorrected(cfg, users, LoginUser("alice", "secret123"), 0, 0).status == OK
  {
    var users: Repo<User> :=
      Table(map[0 := User("alice", "alice@example.com", Encode("secret123", salt), map[])], 1);
    assert "alice" != "alice@example.com" by {
      assert |"alice"| != |"alice@example.com"|;
    }
    assert !Repositories.HasEmail(users, "alice");
    LoginByUsernameFails(cfg, users, 0, "secret123", 0, 0);
  }

  /** The normal path: after signup with an email that no account uses as
      username or email, logging in with that email and the password answers
      200 with a token issued to the new user's username. */
  lemma SignupThenLoginByEmail(cfg: Config, users: Repo<User>, input: RegisterUser, salt: Salt,
                               clockIat: int, clockExp: int)
    requires |cfg.secret| >= MIN_KEY_BYTES
    requires !HasUsername(users, input.email) && !HasEmail(users, input.email)
    ensures var after := AuthenticationService.Signup(users, input, salt).0;
            var r := Login(cfg, after, LoginUser(input.email, input.password), clockIat, clockExp);
            && r.status == OK
            && r.body.TokenBody?
            && r.body.token.claims.subject == input.username
  {
    var (after, id) := AuthenticationService.Signup(users, input, salt);
    if input.username == input.email {
      assert FindByUsername(after, input.email) == Some(id);
    } else {
      assert !HasUsername(after, input.email);
    }
    assert FindByEmail(after, input.email) == Some(id);
  }

  /** An account whose username is another account's email logs in with
      that identifier and its own password. `authenticate` as written then
      returns the other account, and the login issues a token in that
      account's name; the corrected login issues the token of the account
      whose password was checked. */
  lemma UsernameEqualToOtherEmailGetsTheirToken(cfg: Config, users: Repo<User>, holder: nat, owner: nat,
                                                password: string, clockIat: int, clockExp: int)
    requires holder in users.rows && owner in users.rows && holder != owner
    requires users.rows[holder].username == users.rows[owner].email
    requires forall k :: k in users.rows && k != holder ==> users.rows[k].username != users.rows[holder].username
    requires forall k :: k in users.rows && k != owner ==> users.rows[k].email != users.rows[owner].email
    requires Matches(password, users.rows[holder].password)
    requires |cfg.secret| >= MIN_KEY_BYTES
    ensures users.rows[owner].username != users.rows[holder].username
    ensures var r := Login(cfg, users, LoginUser(users.rows[owner].email, password), clockIat, clockExp);
            r.status == OK && r.body.TokenBody? && r.body.token.claims.subject == users.rows[owner].username
    ensures var r := LoginCorrected(cfg, users, LoginUser(users.rows[owner].email, password), clockIat, clockExp);
            r.status == OK && r.body.TokenBody? && r.body.token.claims.subject == users.rows[holder].username
  {
    var identifier := users.rows[owner].email;
    assert Repositories.FindByUsername(users, identifier) == Some(holder);
    assert Repositories.FindByEmail(users, identifier) == Some(owner);
  }

  /** A concrete instance: bob signed up with email bob@x.com; another
      account signed up with username bob@x.com, email m@x.com and its own
      password. Logging in as bob@x.com with that password yields, as
      written, a token whose subject is bob. */
  lemma BobsTokenForAnotherAccount(cfg: Config, s0: Salt, s1: Salt)
    requires |cfg.secret| >= MIN_KEY_BYTES
    ensures var users: Repo<User> :=
              Table(map[0 := User("bob", "bob@x.com", Encode("bobpw", s0), map[]),
                        1 := User("bob@x.com", "m@x.com", Encode("mallorypw", s1), map[])], 2);
            && Login(cfg, users, LoginUser("bob@x.com", "mallorypw"), 0, 0).body.token.claims.subject == "bob"
            && LoginCorrected(cfg, users, LoginUser("bob@x.com", "mallorypw"), 0, 0).body.token.claims.subject
               == "bob@x.com"
  {
    var users: Repo<User> :=
      Table(map[0 := User("bob", "bob@x.com", Encode("bobpw", s0), map[]),
                1 := User("bob@x.com", "m@x.com", Encode("mallorypw", s1), map[])], 2);
    assert "bob" != "bob@x.com" by {
      assert |"bob"| != |"bob@x.com"|;
    }
    assert "bob@x.com" != "m@x.com" by {
      assert "bob@x.com"[0] != "m@x.com"[0];
    }
    UsernameEqualToOtherEmailGetsTheirToken(cfg, users, 1, 0, "mallorypw", 0, 0);
  }
}

=== FILE: authentication_service.dfy ===
/** `AuthenticationService`, together with the authentication manager it
    delegates the credential check to: the `DaoAuthenticationProvider` bean
    of `SecurityConfig`, wired to the `UserDetailsService` of
    `JwtFilterConfig` and the bcrypt `PasswordEncoder`. */
module AuthenticationService {
  import opened Common
  import opened Store
  import opened Entities
  import opened PasswordEncoder
  import opened Repositories
  import opened JwtFilterConfig
  import UserService

  /** The signup request body. */
  datatype RegisterUser = RegisterUser(username: string, email: string, password: string)

  /** The login request body; its `email` field carries the identifier. */
  datatype LoginUser = LoginUser(email: string, password: string)

  /** `authenticationManager.authenticate(...)`: load the account by
      username or email, then compare the password with bcrypt. A missing
      account is reported as bad credentials, exactly like a wrong password,
      so the caller cannot tell the two apart. On success the loaded account
      is the authenticated principal. */
  function CheckCredentials(users: Repo<User>, identifier: string, password: string): (r: Result<User>)
    ensures r.Err? ==> r.error == BadCredentials
    ensures r.Ok? <==> LoadUserByUsername(users, identifier).Ok?
                       && Matches(password, LoadUserByUsername(users, identifier).value.password)
    ensures r.Ok? ==> r == LoadUserByUsername(users, identifier)
  {
    match LoadUserByUsername(users, identifier)
    case Err(_) => Err(BadCredentials)
    case Ok(user) => if Matches(password, user.password) then Ok(user) else Err(BadCredentials)
  }

  /** `signup`: a new user with the given username and email and the bcrypt
      hash of the password, saved under a fresh id; the saved user is
      returned. `salt` is the randomness bcrypt draws. */
  function Signup(users: Repo<User>, input: RegisterUser, salt: Salt): (r: (Repo<User>, nat))
    ensures var (after, id) := r;
            && id !in users.rows
            && after.rows.Keys == users.rows.Keys + {id}
            && (forall k :: k in users.rows ==> after.rows[k] == users.rows[k])
    ensures var (after, id) := r;
            && after.rows[id].username == input.username
            && after.rows[id].email == input.email
            && after.rows[id].attrs == map[]
    ensures var (after, id) := r;
            && Matches(input.password, after.rows[id].password)
            && after.rows[id].password != Plain(input.password)
  {
    Insert(users, User(input.username, input.email, Encode(input.password, salt), map[]))
  }

  /** `authenticate` as written: after a successful credential check it
      returns `findByEmail(identifier)`, which is `null` (`None`) when the
      check matched the identifier as a username. */
  function Authenticate(users: Repo<User>, input: LoginUser): (r: Result<Option<User>>)
    ensures r.Err? <==> CheckCredentials(users, input.email, input.password).Err?
    ensures r.Err? ==> r.error == BadCredentials
    ensures r.Ok? ==> (r.value.Some? <==> HasEmail(users, input.email))
    ensures r.Ok? && r.value.Some? ==>
              r.value.value in users.rows.Values && r.value.value.email == input.email
  {
    var _ :- CheckCredentials(users, input.email, input.password);
    match FindByEmail(users, input.email)
    case None => Ok(None)
    case Some(id) => Ok(Some(users.rows[id]))
  }

  /** `authenticate` as evidently intended: the user returned is the one
      the credential check authenticated, whether the identifier was an
      email or a username. */
  function AuthenticateCorrected(users: Repo<User>, input: LoginUser): (r: Result<User>)
    ensures r.Err? ==> r.error == BadCredentials
    ensures r.Ok? <==> CheckCredentials(users, input.email, input.password).Ok?
    ensures r.Ok? ==> r.value in users.rows.Values && Matches(input.password, r.value.password)
    ensures r.Ok? ==> r.value.username == input.email || r.value.email == input.email
    ensures r.Ok? && HasUsername(users, input.email) ==> r.value.username == input.email
  {
    CheckCredentials(users, input.email, input.password)
  }

  /** `getLoggedInUsers`, with the ambient authentication passed in: no
      users without an authentication, every stored user with one. */
  function GetLoggedInUsers(users: Repo<User>, authentication: Option<string>): (r: seq<User>)
    ensures authentication.None? ==> r == []
    ensures authentication.Some? ==> ListsRows(users, users.rows.Keys, r)
    ensures authentication.Some? ==> |r| == |users.rows|
    ensures authentication.Some? ==> forall id :: id in users.rows ==> users.rows[id] in r
    ensures forall i :: 0 <= i < |r| ==> r[i] in users.rows.Values
  {
    if authentication.None? then [] else All(users)
  }

  /** A user who logs in with their username and the right password passes
      the credential check, but `authenticate` as written returns `null`
      unless some user also has that string as email. */
  lemma LoginByUsernameYieldsNull(users: Repo<User>, id: nat, password: string)
    requires id in users.rows
    requires forall k :: k in users.rows && k != id ==> users.rows[k].username != users.rows[id].username
    requires Matches(password, users.rows[id].password)
    requires !HasEmail(users, users.rows[id].username)
    ensures CheckCredentials(users, users.rows[id].username, password) == Ok(users.rows[id])
    ensures Authenticate(users, LoginUser(users.rows[id].username, password)) == Ok(None)
    ensures AuthenticateCorrected(users, LoginUser(users.rows[id].username, password)) == Ok(users.rows[id])
  {
    var name := users.rows[id].username;
    assert FindByUsername(users, name) == Some(id);
  }

  /** `updateUser` stores the password it is given without encoding it, so
      after an update that sets a plain string the user cannot pass the
      credential check by username with any password. */
  lemma PlainPasswordUpdateLocksOut(users: Repo<User>, id: nat, details: User, text: string, attempt: string)
    requires UserService.UniqueAccounts(users)
    requires details.password == Plain(text)
    requires UserService.UpdateUser(users, id, details).Ok?
    ensures CheckCredentials(UserService.UpdateUser(users, id, details).value.0, details.username, attempt)
         == Err(BadCredentials)
  {
    var after := UserService.UpdateUser(users, id, details).value.0;
    UserService.UpdateKeepsAccountsUnique(users, id, details);
    assert after.rows[id].username == details.username;
    assert FindByUsername(after, details.username) == Some(id);
  }

  /** After `signup`, `getAllUsers` succeeds and lists one more user, the
      saved one among them, and so does `getLoggedInUsers` for any
      authentication. */
  lemma SignupGrowsAll(users: Repo<User>, input: RegisterUser, salt: Salt, authentication: string)
    ensures var (after, id) := Signup(users, input, salt);
            && UserService.GetAllUsers(after).Ok?
            && |UserService.GetAllUsers(after).value| == |users.rows| + 1
            && after.rows[id] in UserService.GetAllUsers(after).value
            && |GetLoggedInUsers(after, Some(authentication))| == |users.rows| + 1
            && after.rows[id] in GetLoggedInUsers(after, Some(authentication))
  {
  }
}

=== FILE: budget_service.dfy ===
/** `BudgetService`: budgets with a positive amount. */
module BudgetService {
  import opened Common
  import opened Store
  import opened Entities

  const AMOUNT_MESSAGE: string := "Budget amount must be greater than 0"

  /** `validateBudgetForCreation` and `validateBudgetForUpdate`, which
      test the same thing. */
  function ValidateAmount(budget: Budget): (r: Result<()>)
    ensures r.Ok? <==> budget.amount > 0
    ensures r.Err? ==> r.error == IllegalArgument(AMOUNT_MESSAGE)
  {
    if budget.amount <= 0 then Err(IllegalArgument(AMOUNT_MESSAGE)) else Ok(())
  }

  /** `createBudget`: a non-positive amount is refused and nothing is
      saved; otherwise the budget is saved under a fresh id. */
  function CreateBudget(budgets: Repo<Budget>, budget: Budget): (r: Result<(Repo<Budget>, nat)>)
    ensures r.Err? <==> budget.amount <= 0
    ensures r.Err? ==> r.error.IllegalArgument?
    ensures r.Ok? ==> var (after, id) := r.value;
              && id !in budgets.rows
              && after.rows == budgets.rows[id := budget]
  {
    var _ :- ValidateAmount(budget);
    Ok(Insert(budgets, budget))
  }

  /** `getAllBudgets`: every stored budget, possibly none. */
  function GetAllBudgets(budgets: Repo<Budget>): (r: seq<Budget>)
    ensures ListsRows(budgets, budgets.rows.Keys, r)
    ensures |r| == |budgets.rows|
    ensures forall id :: id in budgets.rows ==> budgets.rows[id] in r
    ensures forall i :: 0 <= i < |r| ==> r[i] in budgets.rows.Values
  {
    All(budgets)
  }

  /** `getBudgetById`: `null` for a missing id. */
  function GetBudgetById(budgets: Repo<Budget>, id: nat): (r: Option<Budget>)
    ensures r.None? <==> id !in budgets.rows
    ensures r.Some? ==> r.value == budgets.rows[id]
  {
    FindById(budgets, id)
  }

  /** `updateBudget`: the amount is checked first; a missing budget is then
      dereferenced (`null`); otherwise only the amount changes. */
  function UpdateBudget(budgets: Repo<Budget>, id: nat, budget: Budget): (r: Result<(Repo<Budget>, Budget)>)
    ensures budget.amount <= 0 ==> r == Err(IllegalArgument(AMOUNT_MESSAGE))
    ensures budget.amount > 0 && id !in budgets.rows ==> r == Err(NullReference)
    ensures r.Ok? <==> budget.amount > 0 && id in budgets.rows
    ensures r.Ok? ==> var (after, saved) := r.value;
              && saved == budgets.rows[id].(amount := budget.amount)
              && saved.attrs == budgets.rows[id].attrs
              && after.rows == budgets.rows[id := saved]
  {
    var existing := FindById(budgets, id);
    var _ :- ValidateAmount(budget);
    if existing.None? then Err(NullReference)
    else
      var saved := existing.value.(amount := budget.amount);
      Ok((Put(budgets, id, saved), saved))
  }

  /** `deleteBudget`: no existence check. */
  function DeleteBudget(budgets: Repo<Budget>, id: nat): (r: Repo<Budget>)
    ensures id !in r.rows
    ensures r.rows.Keys == budgets.rows.Keys - {id}
    ensures forall k :: k in r.rows ==> r.rows[k] == budgets.rows[k]
  {
    Delete(budgets, id)
  }

  /** Every stored budget has a positive amount. */
  predicate PositiveAmounts(budgets: Repo<Budget>) {
    forall id :: id in budgets.rows ==> budgets.rows[id].amount > 0
  }

  /** Creating, updating and deleting keep every amount positive. */
  lemma OperationsKeepAmountsPositive(budgets: Repo<Budget>, id: nat, budget: Budget)
    requires PositiveAmounts(budgets)
    ensures CreateBudget(budgets, budget).Ok? ==> PositiveAmounts(CreateBudget(budgets, budget).value.0)
    ensures UpdateBudget(budgets, id, budget).Ok? ==> PositiveAmounts(UpdateBudget(budgets, id, budget).value.0)
    ensures PositiveAmounts(DeleteBudget(budgets, id))
  {
  }

  /** A created budget is found under its new id; a deleted one is not. */
  lemma CreateThenDelete(budgets: Repo<Budget>, budget: Budget)
    requires CreateBudget(budgets, budget).Ok?
    ensures var (after, id) := CreateBudget(budgets, budget).value;
            && GetBudgetById(after, id) == Some(budget)
            && GetBudgetById(DeleteBudget(after, id), id) == None
            && DeleteBudget(after, id).rows == budgets.rows
  {
  }

  /** After a successful `createBudget`, `getAllBudgets` lists one more
      budget, the new one among them. */
  lemma CreateGrowsAll(budgets: Repo<Budget>, budget: Budget)
    requires CreateBudget(budgets, budget).Ok?
    ensures var after := CreateBudget(budgets, budget).value.0;
            && |GetAllBudgets(after)| == |GetAllBudgets(budgets)| + 1
            && budget in GetAllBudgets(after)
  {
    var (after, id) := CreateBudget(budgets, budget).value;
    assert |after.rows| == |budgets.rows| + 1;
    assert after.rows[id] == budget;
  }

  /** After `deleteBudget`, `getAllBudgets` lists one budget fewer when the
      id was stored, and the same budgets otherwise. */
  lemma DeleteShrinksAll(budgets: Repo<Budget>, id: nat)
    ensures id in budgets.rows ==> |GetAllBudgets(DeleteBudget(budgets, id))| == |GetAllBudgets(budgets)| - 1
    ensures id !in budgets.rows ==> GetAllBudgets(DeleteBudget(budgets, id)) == GetAllBudgets(budgets)
  {
    var after := DeleteBudget(budgets, id);
    if id in budgets.rows {
      assert |after.rows| == |budgets.rows| - 1;
    } else {
      assert after.rows == budgets.rows;
      assert after == budgets;
    }
  }
}

=== FILE: category_service.dfy ===
/** `CategoryService`: categories with unique names. */
module CategoryService {
  import opened Common
  import opened Store
  import opened Entities
  import opened Repositories

  /** `validateCategoryForCreation`. */
  function ValidateCategoryForCreation(categories: Repo<Category>, category: Category): (r: Result<()>)
    ensures r.Err? <==> HasCategoryName(categories, category.name)
    ensures r.Err? ==> r.error == DuplicateCategory("name")
  {
    if FindByName(categories, category.name).Some? then Err(DuplicateCategory("name")) else Ok(())
  }

  /** `createCategory`: a name already in use is refused and nothing is
      saved; otherwise the category is saved under a fresh id. */
  function CreateCategory(categories: Repo<Category>, category: Category): (r: Result<(Repo<Category>, nat)>)
    ensures r.Err? <==> HasCategoryName(categories, category.name)
    ensures r.Err? ==> r.error == DuplicateCategory("name")
    ensures r.Ok? ==> var (after, id) := r.value;
              && id !in categories.rows
              && after.rows == categories.rows[id := category]
  {
    var _ :- ValidateCategoryForCreation(categories, category);
    Ok(Insert(categories, category))
  }

  /** `getCategoryById`. */
  function GetCategoryById(categories: Repo<Category>, id: nat): (r: Result<Category>)
    ensures r.Ok? <==> id in categories.rows
    ensures r.Ok? ==> r.value == categories.rows[id]
    ensures r.Err? ==> r.error == CategoryNotFound
  {
    match FindById(categories, id)
    case None => Err(CategoryNotFound)
    case Some(c) => Ok(c)
  }

  /** `validateCategoryForUpdate`: a missing category is dereferenced
      (`null`); a changed name must be free. */
  function ValidateCategoryForUpdate(categories: Repo<Category>, existing: Option<Category>, category: Category): (r: Result<()>)
    ensures existing.None? ==> r == Err(NullReference)
    ensures existing.Some? ==>
              (r.Err? <==> existing.value.name != category.name && HasCategoryName(categories, category.name))
    ensures existing.Some? && r.Err? ==> r.error == DuplicateCategory("name")
  {
    match existing
    case None => Err(NullReference)
    case Some(e) =>
      if e.name != category.name && FindByName(categories, category.name).Some? then
        Err(DuplicateCategory("name"))
      else
        Ok(())
  }

  /** `updateCategory`, with `id` the id carried by the request body: only
      name and description are copied onto the stored category. */
  function UpdateCategory(categories: Repo<Category>, id: nat, category: Category): (r: Result<(Repo<Category>, Category)>)
    ensures id !in categories.rows ==> r == Err(NullReference)
    ensures id in categories.rows ==>
              (r.Err? <==> categories.rows[id].name != category.name && HasCategoryName(categories, category.name))
    ensures id in categories.rows && categories.rows[id].name == category.name ==> r.Ok?
    ensures r.Ok? ==> var (after, saved) := r.value;
              && id in categories.rows
              && saved == Category(category.name, category.description, categories.rows[id].attrs)
              && after.rows == categories.rows[id := saved]
  {
    var existing := FindById(categories, id);
    var _ :- ValidateCategoryForUpdate(categories, existing, category);
    var saved := existing.value.(name := category.name, description := category.description);
    Ok((Put(categories, id, saved), saved))
  }

  /** `deleteCategory`: a missing id is an error and changes nothing. */
  function DeleteCategory(categories: Repo<Category>, id: nat): (r: Result<Repo<Category>>)
    ensures r.Err? <==> id !in categories.rows
    ensures r.Err? ==> r.error == CategoryNotFound
    ensures r.Ok? ==> r.value.rows.Keys == categories.rows.Keys - {id}
    ensures r.Ok? ==> forall k :: k in r.value.rows ==> r.value.rows[k] == categories.rows[k]
  {
    if FindById(categories, id).None? then Err(CategoryNotFound) else Ok(Delete(categories, id))
  }

  /** `getAllCategories`: every stored category; an empty store is an
      error. */
  function GetAllCategories(categories: Repo<Category>): (r: Result<seq<Category>>)
    ensures r.Err? <==> categories.rows == map[]
    ensures r.Err? ==> r.error == CategoryNotFound
    ensures r.Ok? ==> ListsRows(categories, categories.rows.Keys, r.value)
    ensures r.Ok? ==> |r.value| == |categories.rows|
    ensures r.Ok? ==> forall id :: id in categories.rows ==> categories.rows[id] in r.value
    ensures r.Ok? ==> forall i :: 0 <= i < |r.value| ==> r.value[i] in categories.rows.Values
  {
    if |All(categories)| == 0 then Err(CategoryNotFound) else Ok(All(categories))
  }

  /** No two stored categories share a name. */
  predicate UniqueNames(categories: Repo<Category>) {
    forall i, j :: i in categories.rows && j in categories.rows && categories.rows[i].name == categories.rows[j].name ==> i == j
  }

  /** The duplicate checks keep category names unique. */
  lemma CreateKeepsNamesUnique(categories: Repo<Category>, category: Category)
    requires UniqueNames(categories)
    requires CreateCategory(categories, category).Ok?
    ensures UniqueNames(CreateCategory(categories, category).value.0)
  {
  }

  lemma UpdateKeepsNamesUnique(categories: Repo<Category>, id: nat, category: Category)
    requires UniqueNames(categories)
    requires UpdateCategory(categories, id, category).Ok?
    ensures UniqueNames(UpdateCategory(categories, id, category).value.0)
  {
  }

  /** A created category is found under its new id and by its name. */
  lemma CreateThenGet(categories: Repo<Category>, category: Category)
    requires CreateCategory(categories, category).Ok?
    ensures var (after, id) := CreateCategory(categories, category).value;
            && GetCategoryById(after, id) == Ok(category)
            && FindByName(after, category.name) == Some(id)
  {
    var (after, id) := CreateCategory(categories, category).value;
    assert after.rows[id] == category;
  }

  /** A deleted category is no longer found. */
  lemma DeleteThenGet(categories: Repo<Category>, id: nat)
    requires DeleteCategory(categories, id).Ok?
    ensures GetCategoryById(DeleteCategory(categories, id).value, id) == Err(CategoryNotFound)
  {
  }

  /** After a successful `createCategory`, `getAllCategories` succeeds and
      lists one more category, the new one among them. */
  lemma CreateGrowsAll(categories: Repo<Category>, category: Category)
    requires CreateCategory(categories, category).Ok?
    ensures var after := CreateCategory(categories, category).value.0;
            && GetAllCategories(after).Ok?
            && |GetAllCategories(after).value| == |categories.rows| + 1
            && category in GetAllCategories(after).value
  {
    var (after, id) := CreateCategory(categories, category).value;
    assert |after.rows| == |categories.rows| + 1;
    assert after.rows[id] == category;
  }

  /** After a successful `deleteCategory`, `getAllCategories` lists one
      category fewer, failing once none is left. */
  lemma DeleteShrinksAll(categories: Repo<Category>, id: nat)
    requires DeleteCategory(categories, id).Ok?
    ensures var after := DeleteCategory(categories, id).value;
            && (GetAllCategories(after).Err? <==> |categories.rows| == 1)
            && (GetAllCategories(after).Ok? ==> |GetAllCategories(after).value| == |categories.rows| - 1)
  {
  }
}

=== FILE: common.dfy ===
/** Shared vocabulary of the model: optional values, results that carry one of
    the exceptions the services throw, and the few pieces of Java semantics
    (64-bit `long` arithmetic, `long` division, `StringUtils.hasText`) whose
    exact behaviour the services depend on. */
module Common {

  /** Java's nullable reference: `None` stands for `null`. */
  datatype Option<+T> = None | Some(value: T)

  /** The exceptions the modelled code throws or lets through. */
  datatype Error =
    | UserNotFound                  // hu.financial UserNotFoundException
    | DuplicateUser(field: string)  // hu.financial DuplicateUserException
    | CategoryNotFound              // hu.financial CategoryNotFoundException
    | DuplicateCategory(field: string)
    | TransactionNotFound           // hu.financial TransactionNotFoundException
    | IllegalArgument(message: string)
    | NullReference                 // a NullPointerException
    | UsernameNotFound              // Spring Security UsernameNotFoundException
    | BadCredentials                // Spring Security BadCredentialsException
    | SignatureInvalid              // jjwt SignatureException
    | TokenExpired                  // jjwt ExpiredJwtException
    | WeakKey                       // jjwt WeakKeyException

  /** A call either returns a value or throws one of the errors above. */
  datatype Result<+T> = Ok(value: T) | Err(error: Error) {
    predicate IsFailure() {
      Err?
    }

    function PropagateFailure<U>(): Result<U>
      requires Err?
    {
      Err(error)
    }

    function Extract(): T
      requires Ok?
    {
      value
    }
  }

  /** Spring Security's `AuthenticationException` hierarchy: the errors that
      an `AuthenticationManager` reports for a failed login. */
  predicate IsAuthenticationError(e: Error) {
    e.UsernameNotFound? || e.BadCredentials?
  }

  // ---- Java `long` ----------------------------------------------------------

  const LONG_MIN: int := -0x8000_0000_0000_0000
  const LONG_MAX: int := 0x7FFF_FFFF_FFFF_FFFF
  const TWO_TO_64: int := 0x1_0000_0000_0000_0000

  predicate IsLong(x: int) {
    LONG_MIN <= x <= LONG_MAX
  }

  /** The value a Java `long` holds after an operation whose exact result is
      `x`: two's-complement wrap-around modulo 2^64. */
  function WrapLong(x: int): (r: int)
    ensures IsLong(r)
    ensures (r - x) % TWO_TO_64 == 0
    ensures IsLong(x) ==> r == x
  {
    (x - LONG_MIN) % TWO_TO_64 + LONG_MIN
  }

  /** `ms / 1000` on a Java `long`: the quotient is truncated toward zero,
      which differs from Dafny's Euclidean `/` for negative `ms`. */
  function MillisToSeconds(ms: int): (s: int)
    ensures 0 <= ms ==> 0 <= ms - 1000 * s < 1000
    ensures ms < 0 ==> -1000 < ms - 1000 * s <= 0
  {
    if 0 <= ms then ms / 1000 else -((-ms) / 1000)
  }

  // ---- java.lang.Character / org.springframework.util.StringUtils ----------

  /** `Character.isWhitespace`: the Unicode space, line and paragraph
      separators except the three non-breaking spaces (U+00A0, U+2007,
      U+202F), plus the ASCII controls U+0009..U+000D and U+001C..U+001F. */
  predicate IsJavaWhitespace(c: char) {
    var n := c as int;
    || 0x09 <= n <= 0x0D
    || 0x1C <= n <= 0x20
    || n == 0x1680
    || 0x2000 <= n <= 0x2006
    || 0x2008 <= n <= 0x200A
    || n == 0x2028 || n == 0x2029 || n == 0x205F || n == 0x3000
  }

  /** `StringUtils.hasText` on a non-null string: some character is not
      whitespace (so the empty string has no text). */
  predicate HasText(s: string) {
    exists i :: 0 <= i < |s| && !IsJavaWhitespace(s[i])
  }
}

=== FILE: entities.dfy ===
/** The persisted entities. Only the fields the services read or write are
    named; every other column of an entity is kept in `attrs`, so that "the
    update changes nothing else" can be stated. */
module Entities {
  import opened PasswordEncoder

  /** The columns of an entity that no modelled operation reads or writes. */
  type Attributes = map<string, string>

  /** An account. `getUsername()` of `UserDetails` is taken to be the
      `username` column. */
  datatype User = User(username: string, email: string, password: Password, attrs: Attributes)

  datatype Category = Category(name: string, description: string, attrs: Attributes)

  /** The amount column's type is not part of this model; only its sign is
      ever checked, so it is an integer here. */
  datatype Budget = Budget(amount: int, attrs: Attributes)

  /** `userId` is the id of the owning user. */
  datatype Transaction = Transaction(amount: int, description: string, userId: nat, attrs: Attributes)
}

=== FILE: jwt_filter_config.dfy ===
/** The `UserDetailsService` bean of `JwtFilterConfig`: the login
    identifier is tried as a username first and as an email second. */
module JwtFilterConfig {
  import opened Common
  import opened Store
  import opened Entities
  import opened Repositories

  /** `loadUserByUsername(usernameOrEmail)`: a stored user, never `null`;
      a missing account is a `UsernameNotFoundException`. */
  function LoadUserByUsername(users: Repo<User>, usernameOrEmail: string): (r: Result<User>)
    ensures r.Ok? <==> HasUsername(users, usernameOrEmail) || HasEmail(users, usernameOrEmail)
    ensures r.Err? ==> r.error == UsernameNotFound
    ensures r.Ok? ==> r.value in users.rows.Values
    ensures HasUsername(users, usernameOrEmail) ==>
              r == Ok(users.rows[FindByUsername(users, usernameOrEmail).value])
    ensures !HasUsername(users, usernameOrEmail) && HasEmail(users, usernameOrEmail) ==>
              r == Ok(users.rows[FindByEmail(users, usernameOrEmail).value])
    ensures r.Ok? ==> r.value.username == usernameOrEmail || r.value.email == usernameOrEmail
  {
    var byUsername := FindByUsername(users, usernameOrEmail);
    var found := if byUsername.None? then FindByEmail(users, usernameOrEmail) else byUsername;
    if found.None? then Err(UsernameNotFound) else Ok(users.rows[found.value])
  }

  /** When the identifier is one user's username and another user's email,
      the username match wins. */
  lemma UsernameMatchWins(users: Repo<User>, byName: nat, byEmail: nat, identifier: string)
    requires byName in users.rows && users.rows[byName].username == identifier
    requires byEmail in users.rows && users.rows[byEmail].email == identifier
    requires forall id :: id in users.rows && id != byName ==> users.rows[id].username != identifier
    ensures LoadUserByUsername(users, identifier) == Ok(users.rows[byName])
  {
  }
}

=== FILE: jwt_service.dfy ===
/** `JwtService`: issues HS256-signed JSON Web Tokens (RFC 7519, signed as
    in section 3.2 of RFC 7518) and reads claims back only through the
    library's signature-checking parser (section 5.2 of RFC 7515).

    The compact serialisation is not modelled: a token is its claims plus
    its signature. HMAC-SHA256 is an ideal MAC, kept symbolically as the key
    and the claims it was computed over, so a signature verifies only for the
    key and claims it was made from. Times are Java `long` milliseconds
    (`System.currentTimeMillis()`, `new Date()`), passed in as parameters;
    the `iat` and `exp` claims are NumericDates in whole seconds, as the
    library stores them. */
module JwtService {
  import opened Common
  import opened Entities

  type Byte = b: int | 0 <= b < 256

  /** `security.jwt.secret-key` after base64 decoding, and
      `security.jwt.expiration-time`, the token lifetime in seconds. */
  datatype Config = Config(secret: seq<Byte>, ttlSeconds: int)

  /** The key HMAC-SHA256 works with (section 2 of RFC 2104): a secret of
      at most one block is padded with zero bytes to the block length; a
      longer one is first hashed, which is kept symbolic. */
  datatype Key = HmacKey(block: seq<Byte>) | HashedKey(secret: seq<Byte>)

  /** The registered claims `sub`, `iat` and `exp` (seconds), and any other
      claims by name. */
  datatype Claims = Claims(subject: string, issuedAt: int, expiration: int, extra: map<string, string>)

  /** An HS256 signature, as the key and the claims it was computed over. */
  datatype Tag = HS256(key: Key, signed: Claims)

  datatype Token = Token(claims: Claims, signature: Tag)

  /** The claim names `buildToken` sets itself, overriding extra claims. */
  const REGISTERED: set<string> := {"sub", "iat", "exp"}

  /** HS256 needs a key of at least 256 bits. */
  const MIN_KEY_BYTES: nat := 32

  /** The block length of SHA-256, in bytes. */
  const HMAC_BLOCK_BYTES: nat := 64

  function Zeros(n: nat): (z: seq<Byte>)
    ensures |z| == n && forall i :: 0 <= i < n ==> z[i] == 0
  {
    seq(n, _ => 0)
  }

  /** The HMAC key a secret stands for. */
  function HmacKeyOf(secret: seq<Byte>): (k: Key)
    ensures |secret| <= HMAC_BLOCK_BYTES ==>
              && k.HmacKey? && |k.block| == HMAC_BLOCK_BYTES
              && k.block[..|secret|] == secret
              && forall i :: |secret| <= i < HMAC_BLOCK_BYTES ==> k.block[i] == 0
    ensures |secret| > HMAC_BLOCK_BYTES ==> k == HashedKey(secret)
  {
    if |secret| <= HMAC_BLOCK_BYTES then HmacKey(secret + Zeros(HMAC_BLOCK_BYTES - |secret|))
    else HashedKey(secret)
  }

  /** `b` is `a` followed by nothing but zero bytes. */
  predicate ZeroExtends(a: seq<Byte>, b: seq<Byte>) {
    |a| <= |b| && b[..|a|] == a && forall i :: |a| <= i < |b| ==> b[i] == 0
  }

  /** Two secrets of at most one block are the same HMAC key exactly when
      one is the other followed by zero bytes. */
  lemma SameKeyIffZeroExtends(a: seq<Byte>, b: seq<Byte>)
    requires |a| <= HMAC_BLOCK_BYTES && |b| <= HMAC_BLOCK_BYTES
    ensures HmacKeyOf(a) == HmacKeyOf(b) <==> ZeroExtends(a, b) || ZeroExtends(b, a)
  {
    var ka, kb := HmacKeyOf(a).block, HmacKeyOf(b).block;
    if ZeroExtends(a, b) {
      ZeroExtendedBlocksAgree(a, b, ka, kb);
    }
    if ZeroExtends(b, a) {
      ZeroExtendedBlocksAgree(b, a, kb, ka);
    }
    if ka == kb {
      if |a| <= |b| {
        AgreeingBlocksZeroExtend(a, b, ka, kb);
      } else {
        AgreeingBlocksZeroExtend(b, a, kb, ka);
      }
    }
  }

  lemma AgreeingBlocksZeroExtend(a: seq<Byte>, b: seq<Byte>, ka: seq<Byte>, kb: seq<Byte>)
    requires |a| <= |b| <= HMAC_BLOCK_BYTES
    requires ka == HmacKeyOf(a).block && kb == HmacKeyOf(b).block && ka == kb
    ensures ZeroExtends(a, b)
  {
    assert forall i :: 0 <= i < |a| ==> b[i] == kb[..|b|][i] == ka[..|a|][i] == a[i];
    assert forall i :: |a| <= i < |b| ==> b[i] == kb[..|b|][i] == ka[i];
  }

  lemma ZeroExtendedBlocksAgree(a: seq<Byte>, b: seq<Byte>, ka: seq<Byte>, kb: seq<Byte>)
    requires |b| <= HMAC_BLOCK_BYTES && ZeroExtends(a, b)
    requires ka == HmacKeyOf(a).block && kb == HmacKeyOf(b).block
    ensures ka == kb
  {
    assert |ka| == |kb|;
    forall i | 0 <= i < |ka|
      ensures ka[i] == kb[i]
    {
      if i < |a| {
        assert ka[i] == ka[..|a|][i] == a[i] == b[..|a|][i] == b[i] == kb[..|b|][i];
      } else if i < |b| {
        assert kb[i] == kb[..|b|][i] == b[i];
      }
    }
  }

  /** `getSignInKey`: `Keys.hmacShaKeyFor` refuses keys shorter than 256
      bits. */
  function SignInKey(cfg: Config): (r: Result<Key>)
    ensures r.Ok? <==> |cfg.secret| >= MIN_KEY_BYTES
    ensures r.Ok? ==> r.value == HmacKeyOf(cfg.secret)
    ensures r.Err? ==> r.error == WeakKey
  {
    if |cfg.secret| < MIN_KEY_BYTES then Err(WeakKey) else Ok(HmacKeyOf(cfg.secret))
  }

  function Sign(key: Key, claims: Claims): Tag {
    HS256(key, claims)
  }

  /** A Date read from a NumericDate claim. */
  function ToMillis(seconds: int): int {
    seconds * 1000
  }

  /** `buildToken`: the extra claims, then subject, issued-at and expiration,
      signed with the configured key. The two clock readings are the two
      calls of `System.currentTimeMillis()`; `expiration * 1000` and the sum
      are `long` arithmetic. */
  function BuildToken(cfg: Config, extra: map<string, string>, user: User, expiration: int,
                      clockIat: int, clockExp: int): (r: Result<Token>)
    ensures r.Ok? <==> SignInKey(cfg).Ok?
    ensures r.Err? ==> r.error == WeakKey
    ensures r.Ok? ==> r.value.claims.subject == user.username
    ensures r.Ok? ==> r.value.claims.extra.Keys == extra.Keys - REGISTERED
    ensures r.Ok? ==> forall name :: name in r.value.claims.extra ==> r.value.claims.extra[name] == extra[name]
    ensures r.Ok? ==> r.value.signature == Sign(SignInKey(cfg).value, r.value.claims)
  {
    var key :- SignInKey(cfg);
    var claims := Claims(
      user.username,
      MillisToSeconds(clockIat),
      MillisToSeconds(WrapLong(clockExp + WrapLong(expiration * 1000))),
      extra - REGISTERED);
    Ok(Token(claims, Sign(key, claims)))
  }

  /** The public `generateToken(userDetails)`: no extra claims and the
      configured lifetime. */
  function GenerateToken(cfg: Config, user: User, clockIat: int, clockExp: int): (r: Result<Token>)
    ensures r.Ok? <==> |cfg.secret| >= MIN_KEY_BYTES
    ensures r.Ok? ==> r.value.claims.subject == user.username
    ensures r.Ok? ==> r.value.claims.extra == map[]
  {
    BuildToken(cfg, map[], user, cfg.ttlSeconds, clockIat, clockExp)
  }

  /** `getExpirationTime`. */
  function GetExpirationTime(cfg: Config): int {
    cfg.ttlSeconds
  }

  /** `extractAllClaims`: the parser checks the signature under the
      configured key before it trusts any claim, then refuses a token whose
      expiration lies before `now`. */
  function ExtractAllClaims(cfg: Config, token: Token, now: int): (r: Result<Claims>)
    ensures r.Ok? ==> r.value == token.claims
    ensures r.Ok? <==> SignInKey(cfg).Ok? && token.signature == Sign(SignInKey(cfg).value, token.claims)
                       && now <= ToMillis(token.claims.expiration)
    ensures r.Err? && SignInKey(cfg).Ok? && token.signature != Sign(SignInKey(cfg).value, token.claims) ==>
              r.error == SignatureInvalid
  {
    var key :- SignInKey(cfg);
    if token.signature != Sign(key, token.claims) then Err(SignatureInvalid)
    else if ToMillis(token.claims.expiration) < now then Err(TokenExpired)
    else Ok(token.claims)
  }

  /** `extractUsername`. */
  function ExtractUsername(cfg: Config, token: Token, now: int): (r: Result<string>)
    ensures r.Ok? <==> ExtractAllClaims(cfg, token, now).Ok?
    ensures r.Ok? ==> r.value == token.claims.subject
  {
    var claims :- ExtractAllClaims(cfg, token, now);
    Ok(claims.subject)
  }

  /** `isTokenExpired`: the token is parsed at the clock reading
      `parseNow`, then its expiration is compared, strictly, with a second
      reading `checkNow` (`new Date()`). A token whose expiration equals
      `checkNow` is not expired. Parsing already refuses a token that has
      expired by `parseNow`, so the answer can be `true` only when the token
      expires between the two readings. */
  function IsTokenExpired(cfg: Config, token: Token, parseNow: int, checkNow: int): (r: Result<bool>)
    ensures r.Ok? <==> ExtractAllClaims(cfg, token, parseNow).Ok?
    ensures r.Ok? ==> (r.value <==> ToMillis(token.claims.expiration) < checkNow)
    ensures r == Ok(true) ==> parseNow <= ToMillis(token.claims.expiration) < checkNow
    ensures checkNow <= parseNow ==> r != Ok(true)
  {
    var claims :- ExtractAllClaims(cfg, token, parseNow);
    Ok(ToMillis(claims.expiration) < checkNow)
  }

  /** `isTokenValid`: the subject, parsed at `usernameNow`, must be the
      user's username; only then is `isTokenExpired` called, with its own
      two clock readings. */
  function IsTokenValid(cfg: Config, token: Token, user: User, usernameNow: int, parseNow: int, checkNow: int)
    : (r: Result<bool>)
    ensures r.Ok? <==> && ExtractAllClaims(cfg, token, usernameNow).Ok?
                       && (token.claims.subject == user.username ==> ExtractAllClaims(cfg, token, parseNow).Ok?)
    ensures r.Ok? ==> (r.value <==> token.claims.subject == user.username
                                    && checkNow <= ToMillis(token.claims.expiration))
    ensures token.claims.subject != user.username ==> r != Ok(true)
  {
    match ExtractUsername(cfg, token, usernameNow)
    case Err(e) => Err(e)
    case Ok(username) =>
      if username != user.username then Ok(false)
      else
        match IsTokenExpired(cfg, token, parseNow, checkNow)
        case Err(e) => Err(e)
        case Ok(expired) => Ok(!expired)
  }

  /** An acceptable token at `now`: signed with the configured key, not yet
      expired, issued to this user. */
  predicate Accepts(cfg: Config, token: Token, user: User, now: int) {
    && |cfg.secret| >= MIN_KEY_BYTES
    && token.signature == HS256(HmacKeyOf(cfg.secret), token.claims)
    && now <= token.claims.expiration * 1000
    && token.claims.subject == user.username
  }

  /** With clock readings that do not go backwards, `isTokenValid` says yes
      exactly for tokens acceptable at the last reading; every other token
      makes it say no or throw. */
  lemma ValidIffAccepted(cfg: Config, token: Token, user: User, usernameNow: int, parseNow: int, checkNow: int)
    requires usernameNow <= parseNow <= checkNow
    ensures IsTokenValid(cfg, token, user, usernameNow, parseNow, checkNow) == Ok(true)
            <==> Accepts(cfg, token, user, checkNow)
  {
  }

  /** A token that parses at the first reading but expires before the
      second is reported expired, so the user's token is then invalid
      rather than refused by the parser. */
  lemma ExpiryBetweenReadings(cfg: Config, token: Token, user: User, parseNow: int, checkNow: int)
    requires ExtractAllClaims(cfg, token, parseNow).Ok?
    requires ToMillis(token.claims.expiration) < checkNow
    requires token.claims.subject == user.username
    ensures IsTokenExpired(cfg, token, parseNow, checkNow) == Ok(true)
    ensures IsTokenValid(cfg, token, user, parseNow, parseNow, checkNow) == Ok(false)
  {
  }

  /** Round trip: under the same configuration, the username read back from
      a freshly generated token is the user's, as long as it has not
      expired. */
  lemma UsernameRoundTrip(cfg: Config, user: User, clockIat: int, clockExp: int, now: int)
    requires GenerateToken(cfg, user, clockIat, clockExp).Ok?
    requires now <= ToMillis(GenerateToken(cfg, user, clockIat, clockExp).value.claims.expiration)
    ensures ExtractUsername(cfg, GenerateToken(cfg, user, clockIat, clockExp).value, now) == Ok(user.username)
    ensures IsTokenValid(cfg, GenerateToken(cfg, user, clockIat, clockExp).value, user, now, now, now) == Ok(true)
  {
  }

  /** With one clock reading `now` after the epoch and no `long` overflow,
      the expiration read back is the issue time plus
      `getExpirationTime()` seconds. */
  lemma TokenLifetime(cfg: Config, user: User, now: int)
    requires GenerateToken(cfg, user, now, now).Ok?
    requires 0 <= now <= LONG_MAX && 0 <= now + cfg.ttlSeconds * 1000 <= LONG_MAX
    ensures var c := GenerateToken(cfg, user, now, now).value.claims;
            ToMillis(c.expiration) == ToMillis(c.issuedAt) + GetExpirationTime(cfg) * 1000
  {
    var ttlMillis := cfg.ttlSeconds * 1000;
    assert WrapLong(ttlMillis) == ttlMillis;
    assert WrapLong(now + ttlMillis) == now + ttlMillis;
    var s1 := MillisToSeconds(now);
    var s2 := MillisToSeconds(now + ttlMillis);
    assert s2 == s1 + cfg.ttlSeconds;
  }

  /** Changing the claims of an accepted token, keeping its signature,
      makes the parser refuse it before any claim is read. */
  lemma TamperedClaimsRejected(cfg: Config, token: Token, altered: Claims, now: int, later: int)
    requires ExtractAllClaims(cfg, token, now).Ok?
    requires altered != token.claims
    ensures ExtractAllClaims(cfg, Token(altered, token.signature), later) == Err(SignatureInvalid)
  {
  }

  /** A token generated under one secret yields no claims under a secret
      that is a different HMAC key. */
  lemma ForeignKeyRejected(issuer: Config, cfg: Config, user: User, clockIat: int, clockExp: int, now: int)
    requires GenerateToken(issuer, user, clockIat, clockExp).Ok?
    requires SignInKey(cfg).Ok?
    requires HmacKeyOf(issuer.secret) != HmacKeyOf(cfg.secret)
    ensures ExtractAllClaims(cfg, GenerateToken(issuer, user, clockIat, clockExp).value, now) == Err(SignatureInvalid)
  {
  }

  /** Secrets that differ only by trailing zero bytes are one HMAC key, so
      a token issued under one passes the signature check under the other. */
  lemma ZeroPaddedSecretAccepted(issuer: Config, cfg: Config, user: User, clockIat: int, clockExp: int, now: int)
    requires MIN_KEY_BYTES <= |issuer.secret| < HMAC_BLOCK_BYTES
    requires cfg.secret == issuer.secret + [0]
    requires GenerateToken(issuer, user, clockIat, clockExp).Ok?
    ensures ExtractAllClaims(cfg, GenerateToken(issuer, user, clockIat, clockExp).value, now) != Err(SignatureInvalid)
    ensures var token := GenerateToken(issuer, user, clockIat, clockExp).value;
            ExtractAllClaims(cfg, token, now).Ok? <==> now <= ToMillis(token.claims.expiration)
  {
    assert ZeroExtends(issuer.secret, cfg.secret) by {
      assert cfg.secret[..|issuer.secret|] == issuer.secret;
    }
    SameKeyIffZeroExtends(issuer.secret, cfg.secret);
  }
}

=== FILE: password_encoder.dfy ===
/** The `BCryptPasswordEncoder` bean. The bcrypt computation itself is not
    modelled: a stored password is either a well-formed bcrypt hash, kept
    symbolically as the salt and the password it was computed from, or any
    other string. Only `Matches` looks inside a hash, and it treats bcrypt as
    an ideal one-way, collision-free function. */
module PasswordEncoder {

  /** The random salt bcrypt draws for every call of `encode`. */
  type Salt = nat

  /** The value of a user's `password` column. */
  datatype Password =
    | Plain(text: string)                    // a string that is not a bcrypt hash
    | BCryptHash(salt: Salt, secret: string) // the bcrypt hash of `secret` under `salt`

  /** `encode(raw)`, with the salt the encoder would draw passed in. */
  function Encode(raw: string, salt: Salt): (h: Password)
    ensures h.BCryptHash?
  {
    BCryptHash(salt, raw)
  }

  /** `matches(raw, encoded)`: true exactly for the password the hash was
      computed from; a stored value that is not a bcrypt hash never matches. */
  predicate Matches(raw: string, stored: Password) {
    stored.BCryptHash? && stored.secret == raw
  }

  /** The encoder's promise: a password matches its own hash, and no other
      password does. */
  lemma EncodeThenMatches(raw: string, other: string, salt: Salt)
    ensures Matches(raw, Encode(raw, salt))
    ensures Matches(other, Encode(raw, salt)) <==> other == raw
  {
  }

  /** Two encodings of one password under different salts differ, and none
      of them is the password itself. */
  lemma EncodeIsSalted(raw: string, s1: Salt, s2: Salt)
    ensures s1 != s2 ==> Encode(raw, s1) != Encode(raw, s2)
    ensures Encode(raw, s1) != Plain(raw)
  {
  }

  /** A password column holding a non-bcrypt string matches nothing. */
  lemma PlainNeverMatches(raw: string, text: string)
    ensures !Matches(raw, Plain(text))
  {
  }
}

=== FILE: repositories.dfy ===
/** The derived queries of `UserRepository`, `CategoryRepository` and
    `TransactionRepository`, as functions over the tables. A single-result
    query returns the id of the matching row with the least id. */
module Repositories {
  import opened Common
  import opened Store
  import opened Entities

  predicate HasUsername(users: Repo<User>, name: string) {
    exists id :: id in users.rows && users.rows[id].username == name
  }

  predicate HasEmail(users: Repo<User>, email: string) {
    exists id :: id in users.rows && users.rows[id].email == email
  }

  predicate HasCategoryName(categories: Repo<Category>, name: string) {
    exists id :: id in categories.rows && categories.rows[id].name == name
  }

  /** `findByUsername`. */
  function FindByUsername(users: Repo<User>, name: string): (r: Option<nat>)
    ensures r.None? <==> !HasUsername(users, name)
    ensures r.Some? ==> r.value in users.rows && users.rows[r.value].username == name
    ensures r.Some? ==> forall id :: id in users.rows && users.rows[id].username == name ==> r.value <= id
  {
    FirstWhere(users, (u: User) => u.username == name)
  }

  /** `findByEmail`. */
  function FindByEmail(users: Repo<User>, email: string): (r: Option<nat>)
    ensures r.None? <==> !HasEmail(users, email)
    ensures r.Some? ==> r.value in users.rows && users.rows[r.value].email == email
    ensures r.Some? ==> forall id :: id in users.rows && users.rows[id].email == email ==> r.value <= id
  {
    FirstWhere(users, (u: User) => u.email == email)
  }

  /** `findByName`. */
  function FindByName(categories: Repo<Category>, name: string): (r: Option<nat>)
    ensures r.None? <==> !HasCategoryName(categories, name)
    ensures r.Some? ==> r.value in categories.rows && categories.rows[r.value].name == name
  {
    FirstWhere(categories, (c: Category) => c.name == name)
  }

  /** The ids of the transactions owned by `userId`. */
  function OwnedBy(transactions: Repo<Transaction>, userId: nat): set<nat> {
    set id | id in transactions.rows && transactions.rows[id].userId == userId
  }

  /** `findByUserId`: the transactions owned by `userId`, one entry per
      stored transaction, in id order. */
  function FindByUserId(transactions: Repo<Transaction>, userId: nat): (r: seq<Transaction>)
    ensures ListsRows(transactions, OwnedBy(transactions, userId), r)
    ensures forall i :: 0 <= i < |r| ==> r[i].userId == userId && r[i] in transactions.rows.Values
    ensures forall id :: id in transactions.rows && transactions.rows[id].userId == userId ==> transactions.rows[id] in r
    ensures |r| == |OwnedBy(transactions, userId)|
  {
    var owned := (t: Transaction) => t.userId == userId;
    assert Matching(transactions, owned) == OwnedBy(transactions, userId);
    Where(transactions, owned)
  }
}

=== FILE: security_config.dfy ===
/** The access policy of `SecurityConfig`: the ignore list of the
    `webSecurityCustomizer` bean, and the ordered `authorizeHttpRequests`
    table of the `filterChain` bean, evaluated first match wins. A request
    path is given as its list of decoded segments (`/api/users/7` is
    `["api", "users", "7"]`). */
module SecurityConfig {
  import opened Common

  datatype Method = GET | HEAD | POST | PUT | PATCH | DELETE | OPTIONS | TRACE

  datatype Role = USER | ADMIN

  /** Who the request was authenticated as, if anyone. */
  datatype Principal = Anonymous | Authenticated(name: string, role: Role)

  type Path = seq<string>

  /** `Under(p)` is the Ant pattern `p` followed by the double-star
      wildcard: it matches `p` itself and every path below it. `Exactly(p)`
      is a pattern without a wildcard and matches `p` only. */
  datatype Pattern = Under(prefix: Path) | Exactly(path: Path)

  datatype Matcher = MethodIs(verb: Method) | PathIs(pattern: Pattern)

  datatype Access = PermitAll | IsAuthenticated | HasRole(role: Role)

  datatype Rule = Rule(matcher: Matcher, access: Access)

  /** The `requestMatchers(...)` rules in order, and the access of the
      closing `anyRequest()`, which every request matches. */
  datatype Policy = Policy(rules: seq<Rule>, anyRequest: Access)

  /** `Bypass`: the security filter chain is not applied at all.
      `Unauthorized` (401) is the refusal of an anonymous request,
      `Forbidden` (403) that of an authenticated one. */
  datatype Decision = Bypass | Permit | Unauthorized | Forbidden

  const FilterChain: Policy := Policy(
    [ Rule(MethodIs(DELETE), HasRole(ADMIN)),
      Rule(PathIs(Under(["admin"])), HasRole(ADMIN)),
      Rule(PathIs(Under(["api", "users"])), IsAuthenticated),
      Rule(PathIs(Under(["api", "auth"])), PermitAll) ],
    IsAuthenticated)

  const IgnoredPatterns: seq<Pattern> :=
    [Under(["css"]), Under(["js"]), Under(["img"]), Under(["lib"]), Exactly(["favicon.ico"])]

  predicate PatternMatches(pattern: Pattern, path: Path) {
    match pattern
    case Under(prefix) => prefix <= path
    case Exactly(p) => path == p
  }

  predicate RuleMatches(rule: Rule, verb: Method, path: Path) {
    match rule.matcher
    case MethodIs(m) => verb == m
    case PathIs(pattern) => PatternMatches(pattern, path)
  }

  /** The index of the first rule at or after `from` that matches. */
  function FirstMatchFrom(rules: seq<Rule>, from: nat, verb: Method, path: Path): (r: Option<nat>)
    requires from <= |rules|
    decreases |rules| - from
    ensures r.Some? ==> from <= r.value < |rules| && RuleMatches(rules[r.value], verb, path)
    ensures r.Some? ==> forall j :: from <= j < r.value ==> !RuleMatches(rules[j], verb, path)
    ensures r.None? ==> forall j :: from <= j < |rules| ==> !RuleMatches(rules[j], verb, path)
  {
    if from == |rules| then None
    else if RuleMatches(rules[from], verb, path) then Some(from)
    else FirstMatchFrom(rules, from + 1, verb, path)
  }

  /** The index of the first rule that matches, if any. */
  function FirstMatch(rules: seq<Rule>, verb: Method, path: Path): (r: Option<nat>)
    ensures r.Some? ==> r.value < |rules| && RuleMatches(rules[r.value], verb, path)
    ensures r.Some? ==> forall j :: 0 <= j < r.value ==> !RuleMatches(rules[j], verb, path)
    ensures r.None? ==> forall j :: 0 <= j < |rules| ==> !RuleMatches(rules[j], verb, path)
  {
    FirstMatchFrom(rules, 0, verb, path)
  }

  /** The access a request must satisfy: that of the first matching rule,
      or that of `anyRequest()` when no rule matches. */
  function RequiredAccess(policy: Policy, verb: Method, path: Path): Access
  {
    match FirstMatch(policy.rules, verb, path)
    case Some(i) => policy.rules[i].access
    case None => policy.anyRequest
  }

  /** `permitAll()`, `authenticated()` and `hasRole(..)` for one principal;
      a refusal is 401 for an anonymous request and 403 otherwise. */
  function Grant(access: Access, who: Principal): (d: Decision)
    ensures d != Bypass
    ensures who.Anonymous? && access != PermitAll ==> d == Unauthorized
    ensures who.Authenticated? && d != Permit ==> d == Forbidden
    ensures d == Permit <==> (match access
                              case PermitAll => true
                              case IsAuthenticated => who.Authenticated?
                              case HasRole(r) => who.Authenticated? && who.role == r)
  {
    match access
    case PermitAll => Permit
    case IsAuthenticated => if who.Authenticated? then Permit else Unauthorized
    case HasRole(r) =>
      if who.Anonymous? then Unauthorized
      else if who.role == r then Permit
      else Forbidden
  }

  predicate IsIgnored(path: Path) {
    exists i :: 0 <= i < |IgnoredPatterns| && PatternMatches(IgnoredPatterns[i], path)
  }

  /** The static-asset locations, stated directly on the path. */
  predicate IsStaticAsset(path: Path) {
    || (|path| >= 1 && path[0] in {"css", "js", "img", "lib"})
    || path == ["favicon.ico"]
  }

  /** Whether the request path starts with the segments of `prefix`. */
  predicate Below(path: Path, prefix: Path) {
    |prefix| <= |path| && path[..|prefix|] == prefix
  }

  /** The decision for one request. */
  function Decide(verb: Method, path: Path, who: Principal): (d: Decision)
    ensures d == Bypass <==> IsStaticAsset(path)
    ensures !IsStaticAsset(path) && verb == DELETE ==>
              d == Grant(HasRole(ADMIN), who)
    ensures !IsStaticAsset(path) && verb != DELETE && Below(path, ["admin"]) ==>
              d == Grant(HasRole(ADMIN), who)
    ensures !IsStaticAsset(path) && verb != DELETE && Below(path, ["api", "users"]) ==>
              d == Grant(IsAuthenticated, who)
    ensures !IsStaticAsset(path) && verb != DELETE && Below(path, ["api", "auth"]) ==>
              d == Permit
    ensures !IsStaticAsset(path) && verb != DELETE && !Below(path, ["admin"])
            && !Below(path, ["api", "users"]) && !Below(path, ["api", "auth"]) ==>
              d == Grant(IsAuthenticated, who)
  {
    IgnoredIsStaticAsset(path);
    FilterChainAccess(verb, path);
    if IsIgnored(path) then Bypass
    else Grant(RequiredAccess(FilterChain, verb, path), who)
  }

  /** Evaluating the `filterChain` table first match wins gives the access
      of the first rule whose condition holds, and `authenticated()` when
      none does. */
  lemma FilterChainAccess(verb: Method, path: Path)
    ensures RequiredAccess(FilterChain, verb, path) ==
              if verb == DELETE then HasRole(ADMIN)
              else if Below(path, ["admin"]) then HasRole(ADMIN)
              else if Below(path, ["api", "users"]) then IsAuthenticated
              else if Below(path, ["api", "auth"]) then PermitAll
              else IsAuthenticated
  {
    var rules := FilterChain.rules;
    assert RuleMatches(rules[0], verb, path) <==> verb == DELETE;
    assert RuleMatches(rules[1], verb, path) <==> Below(path, ["admin"]);
    assert RuleMatches(rules[2], verb, path) <==> Below(path, ["api", "users"]);
    assert RuleMatches(rules[3], verb, path) <==> Below(path, ["api", "auth"]);
  }

  /** The ignore list of `webSecurityCustomizer` covers exactly the static
      asset locations, whatever the verb. */
  lemma IgnoredIsStaticAsset(path: Path)
    ensures IsIgnored(path) <==> IsStaticAsset(path)
  {
    if IsStaticAsset(path) {
      var i :=
        if path == ["favicon.ico"] then 4
        else if path[0] == "css" then 0
        else if path[0] == "js" then 1
        else if path[0] == "img" then 2
        else 3;
      assert PatternMatches(IgnoredPatterns[i], path);
    }
  }

  /** Privilege order: anonymous below USER below ADMIN. */
  function Rank(who: Principal): nat {
    match who
    case Anonymous => 0
    case Authenticated(_, USER) => 1
    case Authenticated(_, ADMIN) => 2
  }

  predicate Allowed(d: Decision) {
    d == Permit || d == Bypass
  }

  /** Whatever an anonymous request may do a USER may do, and whatever a
      USER may do an ADMIN may do. */
  lemma PrivilegeMonotone(verb: Method, path: Path, lower: Principal, higher: Principal)
    requires Rank(lower) <= Rank(higher)
    ensures Allowed(Decide(verb, path, lower)) ==> Allowed(Decide(verb, path, higher))
  {
  }
}

=== FILE: store.dfy ===
/** A Spring Data JPA repository reduced to its state: the stored rows keyed
    by their generated id, and the next id the identity generator will hand
    out. Every service of the model works on one such table. */
module Store {
  import opened Common

  datatype Table<T> = Table(rows: map<nat, T>, next: nat)

  /** Every stored id was handed out by the generator. */
  predicate Valid<T>(t: Table<T>) {
    forall id :: id in t.rows ==> id < t.next
  }

  type Repo<T> = t: Table<T> | Valid(t) witness Table(map[], 0)

  predicate Increasing(ids: seq<nat>) {
    forall i, j :: 0 <= i < j < |ids| ==> ids[i] < ids[j]
  }

  /** `order` lists every id of `ids` once, ascending. */
  ghost predicate Enumerates(order: seq<nat>, ids: set<nat>) {
    Increasing(order) && forall id :: id in order <==> id in ids
  }

  /** `r` holds the rows stored under `ids`, one entry per row, in id
      order: the shape of every list a repository query returns. */
  ghost predicate ListsRows<T>(t: Repo<T>, ids: set<nat>, r: seq<T>) {
    exists order :: Enumerates(order, ids) && |order| == |r|
                    && (forall i :: 0 <= i < |order| ==> order[i] in t.rows && r[i] == t.rows[order[i]])
  }

  /** The ids of the rows satisfying `p`. */
  function Matching<T>(t: Repo<T>, p: T -> bool): set<nat> {
    set id | id in t.rows && p(t.rows[id])
  }

  /** `findById`. */
  function FindById<T>(t: Repo<T>, id: nat): (r: Option<T>)
    ensures r.Some? <==> id in t.rows
    ensures r.Some? ==> r.value == t.rows[id]
  {
    if id in t.rows then Some(t.rows[id]) else None
  }

  /** `save` of a new entity: it is stored under the next generated id. */
  function Insert<T>(t: Repo<T>, x: T): (r: (Repo<T>, nat))
    ensures r.1 !in t.rows
    ensures r.0.rows == t.rows[r.1 := x]
    ensures |r.0.rows| == |t.rows| + 1
  {
    (Table(t.rows[t.next := x], t.next + 1), t.next)
  }

  /** `save` of an entity loaded from the table: its row is overwritten. */
  function Put<T>(t: Repo<T>, id: nat, x: T): (r: Repo<T>)
    requires id in t.rows
    ensures r.rows.Keys == t.rows.Keys
    ensures r.rows == t.rows[id := x]
  {
    Table(t.rows[id := x], t.next)
  }

  /** `deleteById`: removes the row if there is one (Spring Data 3 ignores a
      missing id). */
  function Delete<T>(t: Repo<T>, id: nat): (r: Repo<T>)
    ensures r.rows.Keys == t.rows.Keys - {id}
    ensures forall k :: k in r.rows ==> r.rows[k] == t.rows[k]
    ensures |r.rows| == if id in t.rows then |t.rows| - 1 else |t.rows|
  {
    assert (t.rows - {id}).Keys == t.rows.Keys - {id};
    Table(t.rows - {id}, t.next)
  }

  /** The ids at or above `from` whose row satisfies `p`, ascending. */
  function SelectFrom<T>(t: Repo<T>, p: T -> bool, from: nat): (ids: seq<nat>)
    decreases t.next - from
    ensures Increasing(ids)
    ensures forall id :: id in ids <==> from <= id && id in t.rows && p(t.rows[id])
  {
    if t.next <= from then []
    else if from in t.rows && p(t.rows[from]) then
      var rest := SelectFrom(t, p, from + 1);
      assert forall k :: 0 <= k < |rest| ==> from < rest[k] by {
        forall k | 0 <= k < |rest| ensures from < rest[k] {
          assert rest[k] in rest;
        }
      }
      [from] + rest
    else SelectFrom(t, p, from + 1)
  }

  /** The ids of the rows satisfying `p`, ascending. */
  function Select<T>(t: Repo<T>, p: T -> bool): (ids: seq<nat>)
    ensures Increasing(ids)
    ensures forall id :: id in ids <==> id in Matching(t, p)
  {
    SelectFrom(t, p, 0)
  }

  /** The rows stored under `ids`, in that order. */
  function Rows<T>(t: Repo<T>, ids: seq<nat>): (r: seq<T>)
    requires forall i :: 0 <= i < |ids| ==> ids[i] in t.rows
    ensures |r| == |ids|
    ensures forall i :: 0 <= i < |ids| ==> r[i] == t.rows[ids[i]]
  {
    seq(|ids|, i requires 0 <= i < |ids| => t.rows[ids[i]])
  }

  /** A derived query with a single result (`findByName` and the like): the
      matching row with the least id, or `null`. */
  function FirstWhere<T>(t: Repo<T>, p: T -> bool): (r: Option<nat>)
    ensures r.None? <==> forall id :: id in t.rows ==> !p(t.rows[id])
    ensures r.Some? ==> r.value in t.rows && p(t.rows[r.value])
    ensures r.Some? ==> forall id :: id in t.rows && p(t.rows[id]) ==> r.value <= id
  {
    var ids := Select(t, p);
    if |ids| == 0 then None
    else
      assert ids[0] in Matching(t, p);
      Some(ids[0])
  }

  /** A derived query with a list result (`findByUserId`): every matching
      row, one entry per row, in id order. */
  function Where<T(==)>(t: Repo<T>, p: T -> bool): (r: seq<T>)
    ensures ListsRows(t, Matching(t, p), r)
    ensures |r| == |Matching(t, p)|
    ensures forall i :: 0 <= i < |r| ==> r[i] in t.rows.Values && p(r[i])
    ensures forall id :: id in t.rows && p(t.rows[id]) ==> t.rows[id] in r
  {
    var ids := Select(t, p);
    RowsOfEnumeration(t, ids, Matching(t, p));
    Rows(t, ids)
  }

  /** `findAll`: every stored row, one entry per row, in id order. */
  function All<T(==)>(t: Repo<T>): (r: seq<T>)
    ensures ListsRows(t, t.rows.Keys, r)
    ensures |r| == |t.rows|
    ensures |r| == 0 <==> t.rows == map[]
    ensures forall i :: 0 <= i < |r| ==> r[i] in t.rows.Values
    ensures forall id :: id in t.rows ==> t.rows[id] in r
  {
    var everything := (x: T) => true;
    assert Matching(t, everything) == t.rows.Keys;
    Where(t, everything)
  }

  /** An ascending id list holding exactly the elements of `s` has one entry
      per element. */
  lemma {:induction false} CardinalityOfIncreasing(ids: seq<nat>, s: set<nat>)
    requires Increasing(ids)
    requires forall id :: id in ids <==> id in s
    ensures |ids| == |s|
    decreases |ids|
  {
    if ids == [] {
      assert forall id :: id in s ==> id in ids;
    } else {
      var rest := ids[1..];
      forall id ensures id in rest <==> id in s - {ids[0]} {
        if id in rest {
          var j :| 0 <= j < |rest| && rest[j] == id;
          assert ids[j + 1] == id;
        }
        if id in s - {ids[0]} {
          assert id in ids;
          var j :| 0 <= j < |ids| && ids[j] == id;
          assert j != 0;
          assert rest[j - 1] == id;
        }
      }
      CardinalityOfIncreasing(rest, s - {ids[0]});
    }
  }

  /** The rows stored under an enumeration of `s` list the rows of `s`,
      one entry per id. */
  lemma RowsOfEnumeration<T>(t: Repo<T>, ids: seq<nat>, s: set<nat>)
    requires Enumerates(ids, s)
    requires forall id :: id in s ==> id in t.rows
    ensures forall i :: 0 <= i < |ids| ==> ids[i] in s
    ensures ListsRows(t, s, Rows(t, ids))
    ensures |Rows(t, ids)| == |s|
    ensures forall id :: id in s ==> t.rows[id] in Rows(t, ids)
  {
    assert forall i :: 0 <= i < |ids| ==> ids[i] in ids;
    var r := Rows(t, ids);
    CardinalityOfIncreasing(ids, s);
    forall id | id in s
      ensures t.rows[id] in r
    {
      var i :| 0 <= i < |ids| && ids[i] == id;
      assert r[i] == t.rows[id];
    }
  }
}

=== FILE: transaction_service.dfy ===
/** `TransactionService`: transactions with a positive amount, each owned
    by a user. */
module TransactionService {
  import opened Common
  import opened Store
  import opened Entities
  import opened Repositories

  const AMOUNT_MESSAGE: string := "Transaction amount must be greater than 0"

  /** `validateTransactionForCreation` and `validateTransactionForUpdate`,
      which test the same thing. */
  function ValidateAmount(transaction: Transaction): (r: Result<()>)
    ensures r.Ok? <==> transaction.amount > 0
    ensures r.Err? ==> r.error == IllegalArgument(AMOUNT_MESSAGE)
  {
    if transaction.amount <= 0 then Err(IllegalArgument(AMOUNT_MESSAGE)) else Ok(())
  }

  /** `createTransaction`: a non-positive amount is refused and nothing is
      saved; otherwise the transaction is saved under a fresh id. */
  function CreateTransaction(transactions: Repo<Transaction>, transaction: Transaction): (r: Result<(Repo<Transaction>, nat)>)
    ensures r.Err? <==> transaction.amount <= 0
    ensures r.Err? ==> r.error.IllegalArgument?
    ensures r.Ok? ==> var (after, id) := r.value;
              && id !in transactions.rows
              && after.rows == transactions.rows[id := transaction]
  {
    var _ :- ValidateAmount(transaction);
    Ok(Insert(transactions, transaction))
  }

  /** `getAllTransactions`: every stored transaction; an empty store is an
      error. */
  function GetAllTransactions(transactions: Repo<Transaction>): (r: Result<seq<Transaction>>)
    ensures r.Err? <==> transactions.rows == map[]
    ensures r.Err? ==> r.error == TransactionNotFound
    ensures r.Ok? ==> ListsRows(transactions, transactions.rows.Keys, r.value)
    ensures r.Ok? ==> |r.value| == |transactions.rows|
    ensures r.Ok? ==> forall id :: id in transactions.rows ==> transactions.rows[id] in r.value
    ensures r.Ok? ==> forall i :: 0 <= i < |r.value| ==> r.value[i] in transactions.rows.Values
  {
    if |All(transactions)| == 0 then Err(TransactionNotFound) else Ok(All(transactions))
  }

  /** `getTransactionById`: `null` for a missing id. */
  function GetTransactionById(transactions: Repo<Transaction>, id: nat): (r: Option<Transaction>)
    ensures r.None? <==> id !in transactions.rows
    ensures r.Some? ==> r.value == transactions.rows[id]
  {
    FindById(transactions, id)
  }

  /** `updateTransaction`: the amount is checked first; a missing
      transaction is then dereferenced (`null`); otherwise only amount and
      description change. */
  function UpdateTransaction(transactions: Repo<Transaction>, id: nat, transaction: Transaction)
    : (r: Result<(Repo<Transaction>, Transaction)>)
    ensures transaction.amount <= 0 ==> r == Err(IllegalArgument(AMOUNT_MESSAGE))
    ensures transaction.amount > 0 && id !in transactions.rows ==> r == Err(NullReference)
    ensures r.Ok? <==> transaction.amount > 0 && id in transactions.rows
    ensures r.Ok? ==> var (after, saved) := r.value;
              && saved.amount == transaction.amount
              && saved.description == transaction.description
              && saved.userId == transactions.rows[id].userId
              && saved.attrs == transactions.rows[id].attrs
              && after.rows == transactions.rows[id := saved]
  {
    var existing := FindById(transactions, id);
    var _ :- ValidateAmount(transaction);
    if existing.None? then Err(NullReference)
    else
      var saved := existing.value.(amount := transaction.amount, description := transaction.description);
      Ok((Put(transactions, id, saved), saved))
  }

  /** `getTransactionsByUserId`: exactly the transactions the user owns, one
      entry per stored transaction. */
  function GetTransactionsByUserId(transactions: Repo<Transaction>, userId: nat): (r: seq<Transaction>)
    ensures forall i :: 0 <= i < |r| ==> r[i].userId == userId && r[i] in transactions.rows.Values
    ensures forall id :: id in transactions.rows && transactions.rows[id].userId == userId ==>
              transactions.rows[id] in r
    ensures ListsRows(transactions, OwnedBy(transactions, userId), r)
    ensures |r| == |OwnedBy(transactions, userId)|
  {
    FindByUserId(transactions, userId)
  }

  /** `deleteTransaction`: no existence check. */
  function DeleteTransaction(transactions: Repo<Transaction>, id: nat): (r: Repo<Transaction>)
    ensures id !in r.rows
    ensures r.rows.Keys == transactions.rows.Keys - {id}
    ensures forall k :: k in r.rows ==> r.rows[k] == transactions.rows[k]
  {
    Delete(transactions, id)
  }

  /** Every stored transaction has a positive amount. */
  predicate PositiveAmounts(transactions: Repo<Transaction>) {
    forall id :: id in transactions.rows ==> transactions.rows[id].amount > 0
  }

  /** Creating, updating and deleting keep every amount positive. */
  lemma OperationsKeepAmountsPositive(transactions: Repo<Transaction>, id: nat, transaction: Transaction)
    requires PositiveAmounts(transactions)
    ensures CreateTransaction(transactions, transaction).Ok? ==>
              PositiveAmounts(CreateTransaction(transactions, transaction).value.0)
    ensures UpdateTransaction(transactions, id, transaction).Ok? ==>
              PositiveAmounts(UpdateTransaction(transactions, id, transaction).value.0)
    ensures PositiveAmounts(DeleteTransaction(transactions, id))
  {
  }

  /** A created transaction is read back under its new id, and every other
      id reads as before. */
  lemma CreateThenGet(transactions: Repo<Transaction>, transaction: Transaction, other: nat)
    requires CreateTransaction(transactions, transaction).Ok?
    ensures var (after, id) := CreateTransaction(transactions, transaction).value;
            && GetTransactionById(after, id) == Some(transaction)
            && (other != id ==> GetTransactionById(after, other) == GetTransactionById(transactions, other))
  {
  }

  /** An updated transaction is read back with the new amount and
      description and its old owner. */
  lemma UpdateThenGet(transactions: Repo<Transaction>, id: nat, transaction: Transaction)
    requires UpdateTransaction(transactions, id, transaction).Ok?
    ensures var got := GetTransactionById(UpdateTransaction(transactions, id, transaction).value.0, id);
            && got.Some?
            && got.value.amount == transaction.amount
            && got.value.description == transaction.description
            && got.value.userId == GetTransactionById(transactions, id).value.userId
  {
  }

  /** A deleted transaction reads as `null`; every other id reads as
      before. */
  lemma DeleteThenGet(transactions: Repo<Transaction>, id: nat, other: nat)
    ensures GetTransactionById(DeleteTransaction(transactions, id), id).None?
    ensures other != id ==>
              GetTransactionById(DeleteTransaction(transactions, id), other) == GetTransactionById(transactions, other)
  {
  }

  /** An update keeps the owner, so the owner's list holds the updated
      transaction. */
  lemma UpdateKeepsOwner(transactions: Repo<Transaction>, id: nat, transaction: Transaction)
    requires UpdateTransaction(transactions, id, transaction).Ok?
    ensures var (after, saved) := UpdateTransaction(transactions, id, transaction).value;
            saved in GetTransactionsByUserId(after, transactions.rows[id].userId)
  {
  }

  /** After a successful `createTransaction`, `getAllTransactions` succeeds
      and lists one more transaction, and the owner's list gains exactly the
      new one. */
  lemma CreateGrowsLists(transactions: Repo<Transaction>, transaction: Transaction)
    requires CreateTransaction(transactions, transaction).Ok?
    ensures var after := CreateTransaction(transactions, transaction).value.0;
            && GetAllTransactions(after).Ok?
            && |GetAllTransactions(after).value| == |transactions.rows| + 1
            && transaction in GetAllTransactions(after).value
            && |GetTransactionsByUserId(after, transaction.userId)|
               == |GetTransactionsByUserId(transactions, transaction.userId)| + 1
            && transaction in GetTransactionsByUserId(after, transaction.userId)
  {
    var (after, id) := CreateTransaction(transactions, transaction).value;
    assert OwnedBy(after, transaction.userId) == OwnedBy(transactions, transaction.userId) + {id};
  }

  /** After `deleteTransaction` of a stored id, `getAllTransactions` lists
      one transaction fewer, failing once none is left. */
  lemma DeleteShrinksAll(transactions: Repo<Transaction>, id: nat)
    requires id in transactions.rows
    ensures var after := DeleteTransaction(transactions, id);
            && (GetAllTransactions(after).Err? <==> |transactions.rows| == 1)
            && (GetAllTransactions(after).Ok? ==>
                  |GetAllTransactions(after).value| == |transactions.rows| - 1)
  {
  }
}

=== FILE: user_service.dfy ===
/** `UserService`: reading, updating and deleting users, and asking whether
    the current principal is a stored user. The ambient security context is
    passed in as the name of its authentication, if there is one. */
module UserService {
  import opened Common
  import opened Store
  import opened Entities
  import opened Repositories

  /** `getAllUsers`: every stored user; an empty store is an error. */
  function GetAllUsers(users: Repo<User>): (r: Result<seq<User>>)
    ensures r.Err? <==> users.rows == map[]
    ensures r.Err? ==> r.error == UserNotFound
    ensures r.Ok? ==> ListsRows(users, users.rows.Keys, r.value)
    ensures r.Ok? ==> |r.value| == |users.rows|
    ensures r.Ok? ==> forall id :: id in users.rows ==> users.rows[id] in r.value
    ensures r.Ok? ==> forall i :: 0 <= i < |r.value| ==> r.value[i] in users.rows.Values
  {
    var all := All(users);
    if |all| == 0 then Err(UserNotFound) else Ok(all)
  }

  /** `getUserById`. */
  function GetUserById(users: Repo<User>, id: nat): (r: Result<User>)
    ensures r.Ok? <==> id in users.rows
    ensures r.Ok? ==> r.value == users.rows[id]
    ensures r.Err? ==> r.error == UserNotFound
  {
    match FindById(users, id)
    case None => Err(UserNotFound)
    case Some(user) => Ok(user)
  }

  /** `validateUserForUpdate`: a changed username must be free, then a
      non-blank changed email must be free. */
  function ValidateUserForUpdate(users: Repo<User>, existing: User, details: User): (r: Result<()>)
    ensures r.Err? <==>
              || (existing.username != details.username && HasUsername(users, details.username))
              || (HasText(details.email) && details.email != existing.email && HasEmail(users, details.email))
    ensures existing.username != details.username && HasUsername(users, details.username) ==>
              r == Err(DuplicateUser("username"))
    ensures r.Err? && r.error != DuplicateUser("username") ==> r == Err(DuplicateUser("email"))
  {
    if existing.username != details.username && FindByUsername(users, details.username).Some? then
      Err(DuplicateUser("username"))
    else if HasText(details.email) && details.email != existing.email
            && FindByEmail(users, details.email).Some? then
      Err(DuplicateUser("email"))
    else
      Ok(())
  }

  /** `updateUser`: username, email and password are copied from the
      details as they are (the password is not encoded); the id and every
      other column stay, and no other user changes. */
  function UpdateUser(users: Repo<User>, id: nat, details: User): (r: Result<(Repo<User>, User)>)
    ensures id !in users.rows ==> r == Err(UserNotFound)
    ensures id in users.rows ==>
              (r.Err? <==> ValidateUserForUpdate(users, users.rows[id], details).Err?)
    ensures r.Err? ==> r.error.UserNotFound? || r.error.DuplicateUser?
    ensures r.Ok? ==> var (after, saved) := r.value;
              && id in users.rows
              && after.rows.Keys == users.rows.Keys
              && after.rows[id] == saved
              && saved.username == details.username
              && saved.email == details.email
              && saved.password == details.password
              && saved.attrs == users.rows[id].attrs
              && (forall k :: k in users.rows && k != id ==> after.rows[k] == users.rows[k])
  {
    var existing :- GetUserById(users, id);
    var _ :- ValidateUserForUpdate(users, existing, details);
    var saved := existing.(username := details.username, email := details.email, password := details.password);
    Ok((Put(users, id, saved), saved))
  }

  /** `deleteUser`: a missing id is an error and changes nothing. */
  function DeleteUser(users: Repo<User>, id: nat): (r: Result<Repo<User>>)
    ensures r.Err? <==> id !in users.rows
    ensures r.Err? ==> r.error == UserNotFound
    ensures r.Ok? ==> r.value.rows.Keys == users.rows.Keys - {id}
    ensures r.Ok? ==> forall k :: k in r.value.rows ==> r.value.rows[k] == users.rows[k]
  {
    if FindById(users, id).None? then Err(UserNotFound) else Ok(Delete(users, id))
  }

  /** `isUserLoggedIn`: whether the authentication's name is a stored
      username; without an authentication the call dereferences `null`. */
  function IsUserLoggedIn(users: Repo<User>, authentication: Option<string>): (r: Result<bool>)
    ensures authentication.None? <==> r.Err?
    ensures r.Err? ==> r.error == NullReference
    ensures r.Ok? ==> (r.value <==> HasUsername(users, authentication.value))
  {
    match authentication
    case None => Err(NullReference)
    case Some(name) => Ok(FindByUsername(users, name).Some?)
  }

  /** A blank new email is never checked for duplicates, and is still
      copied onto the user. */
  lemma BlankEmailSkipsCheck(users: Repo<User>, id: nat, details: User)
    requires id in users.rows
    requires !HasText(details.email)
    requires users.rows[id].username == details.username
    ensures UpdateUser(users, id, details).Ok?
    ensures UpdateUser(users, id, details).value.1.email == details.email
  {
  }

  /** No two stored users share a username, nor a non-blank email. */
  predicate UniqueAccounts(users: Repo<User>) {
    && (forall i, j ::
          (i in users.rows && j in users.rows && users.rows[i].username == users.rows[j].username) ==> i == j)
    && (forall i, j ::
          (i in users.rows && j in users.rows && HasText(users.rows[i].email)
           && users.rows[i].email == users.rows[j].email) ==> i == j)
  }

  /** The duplicate checks of `updateUser` keep usernames and non-blank
      emails unique. */
  lemma UpdateKeepsAccountsUnique(users: Repo<User>, id: nat, details: User)
    requires UniqueAccounts(users)
    requires UpdateUser(users, id, details).Ok?
    ensures UniqueAccounts(UpdateUser(users, id, details).value.0)
  {
  }

  /** After a successful update the user is read back with the new
      fields. */
  lemma UpdateThenGet(users: Repo<User>, id: nat, details: User)
    requires UpdateUser(users, id, details).Ok?
    ensures GetUserById(UpdateUser(users, id, details).value.0, id) == Ok(UpdateUser(users, id, details).value.1)
  {
  }

  /** A deleted user is no longer found. */
  lemma DeleteThenGet(users: Repo<User>, id: nat)
    requires DeleteUser(users, id).Ok?
    ensures GetUserById(DeleteUser(users, id).value, id) == Err(UserNotFound)
  {
  }

  /** After a successful `deleteUser`, `getAllUsers` lists one user fewer,
      failing once none is left. */
  lemma DeleteShrinksAll(users: Repo<User>, id: nat)
    requires DeleteUser(users, id).Ok?
    ensures var after := DeleteUser(users, id).value;
            && (GetAllUsers(after).Err? <==> |users.rows| == 1)
            && (GetAllUsers(after).Ok? ==> |GetAllUsers(after).value| == |users.rows| - 1)
  {
  }
}
